=== FILE: README.md ===
# Streaming catalogue fetcher and its two front-ends, modelled in Dafny

The system builds a table of streaming titles and lets a user search it.

- **The fetcher** (`StreamingDataFetcher.build_content_database`) walks:
  - two content types, movies then TV;
  - six watch providers: Netflix, Apple TV, Amazon Prime, Disney+, HBO Max, Hulu;
  - a page range clamped by the user's `max_pages`;
  - the items of each page.

  Per item it asks three more services: details (genres), external ids (IMDb id) and OMDb (rating and votes). It builds one record per item. Failures are skipped at two levels: a failing item is dropped, and a failing pairing is abandoned. It reports progress to an optional callback. It writes the table to a snapshot named `streaming_content_YYYYMMDD_HHMMSS.csv`.
- **`load_or_create_database`** reuses the lexicographically greatest snapshot in the working directory, unless a refresh is forced or there is none.
- **Two Streamlit front-ends** decide whether to keep the session's table, load a snapshot, rebuild, or stop for missing API keys:
  - the *rail* front-end, `app.py`;
  - the *explorer* front-end, `app1.py`.

  Both then filter the rows by title, type, provider, IMDb rating range and genres, and show a truncated overview on each card.

## How the model is built

- **Services as data.** Every outbound HTTP call is a function in `Responses.Services`. It returns `Reply<T>`: `Ok(body)` or `Raised`. Every JSON key the code reads with `.get` or `[...]` is an `Option`.
- **The callback.** The progress callback is `Option<ProgressCall -> bool>`. The boolean says whether that call raises.
- **The fetcher as a fold.** `Engine.Build` folds over the twelve pairings. `Engine.RunCombination` is one pairing, `Engine.RunPages` its pages, and `Engine.PageEntries` the items of one page.
- **Logs kept next to the records.** A build also returns its progress calls and its discover requests. Every record is tagged with its origin: pairing position, page, and index in `results`. This lets order, provenance and call counts be stated.
- **The loops themselves.** `Engine.BuildContentDatabase` is the source's nested loops with the running `provider_idx`. It is proved equal to the fold.
- **Snapshots.**
  - `Snapshots.SnapshotName` formats the name from timestamp fields passed in. Years have four digits.
  - `Snapshots.FindLatest` is the filter by prefix and suffix, followed by `sorted(...)[-1]`.
  - `Snapshots.Seconds` is an independent chronology: seconds since 1000-01-01. It is used to prove that name order is time order.
- **String helpers.** `Text.Split`, `Text.Join`, `Text.Strip`, `Text.Lower`, `Text.Contains` and `Text.LexLess` stand for Python's `str.split`, `str.join`, `str.strip`, `str.lower`, `in` on strings and string `<`. They are helpers: their properties are stated where they are used (`Text.SplitJoin`, `Text.PadOrder`, `Filters.PiecesOfJoinedNames`, `Snapshots.NameOrderIsChronological`).
- **Filters.** The filter tab is `seq<Row> -> seq<Row>`. `Filters.Where` is boolean-mask indexing. IMDb ratings are read as integers in tenths.

## Model

| member | source | states |
|---|---|---|
| Engine.GenreNames | data_fetcher.py:108 | The `name` of every genre, in order; `None` exactly when some genre has no `name` key, where the comprehension raises. |
| Engine.ProcessItem | data_fetcher.py:83-117 | An item gives no record exactly when one of these raises: the `id` lookup, the details call, the external-ids call, a genre `name`, or the OMDb call for a truthy IMDb id. Otherwise the record has:<br>• `type` "TV Show" with `name` and `first_air_date` for TV, else "Movie" with `title` and `release_date`;<br>• the mapping's provider name and `tmdb_id` = the item's `id`;<br>• `genres` present iff details has `genres`, and then the ", "-join of the names;<br>• "N/A" rating and votes without a truthy IMDb id, else the OMDb values with "N/A" for a missing key. |
| Engine.Combos | data_fetcher.py:58-63 | Iteration order is all six movie pairings, then the six TV pairings; pairing `i` has position `i` (`provider_idx - 1`, counted across both types). |
| Engine.Collect | data_fetcher.py:81-121 | A page's records are in item order, from items that did not raise, each tagged with its index and equal to that item's processing result. |
| Engine.CollectKeepsEveryRecord | data_fetcher.py:119-121 | The records kept from a page are exactly the items whose processing did not raise: only a raising item is dropped. |
| Engine.ClampPages | data_fetcher.py:68 | `min(total_pages, max_pages)` with a missing `total_pages` read as 1: never above either, equal to one of them, and `None` exactly when `min` raises on an incomparable value. |
| EnginePages.RunPagesOutcome | data_fetcher.py:70-127 | Pages `page..total` run to the end exactly when, on each of them, the callback (if any) does not raise and the discover call (from page 2 on) succeeds. Every record comes from this pairing and one of these pages. |
| EnginePages.CombinationOutcome | data_fetcher.py:66-129 | A pairing's first discover request is always for page 1. It runs to the end exactly when that call succeeds, `min` does not raise, and every clamped page goes through. Its records are its own. |
| Engine.NextPairing | data_fetcher.py:58-63 | Reaching provider `j` in the loop over type `t` means reaching pairing `t * len(providers) + j` of the iteration order, and its run is appended to what the earlier pairings gave. |
| Engine.BuildContentDatabase | data_fetcher.py:54-129 | The nested loops over types and providers, with the running `provider_idx`, compute exactly the fold `Build`; the loop never raises. |
| EnginePages.RunPagesComplete | data_fetcher.py:70-81 | When no progress call for pages `page..total` raises and no discover call fails, every page from `page` to `total` runs. There is one progress call per page when a callback is given, and one discover request per page from 2 on, in ascending order. |
| EnginePages.PagesPerCombination | data_fetcher.py:66-81 | A pairing whose first call succeeds, whose progress calls do not raise and whose later discover calls succeed processes `min(total_pages, max_pages)` pages (a missing `total_pages` counts as 1; a minimum of 0 or less means none). It calls discover once for page 1 and once for each page 2..n; page 1 reuses the initial body. It reports progress once per page. |
| EnginePages.FailedPageKeepsEarlierPages | data_fetcher.py:76-129 | A discover call that raises at page `p` abandons the pairing. If the callback let the pages before `p` pass, it keeps exactly their records: those of the same pages run without a callback and stopped after `p - 1`. The callback may raise on other calls. |
| EnginePages.FailedPageKeepsEarlierPagesOfPairing | data_fetcher.py:66-129 | At pairing level, a failure at page `p` after a callback that let pages `1..p-1` pass leaves the records of the same pairing clamped to `p - 1` pages and run without a callback; the pairing ends abandoned. |
| EnginePages.AccumulateTriesEveryPairing | data_fetcher.py:61-128 | An abandoned pairing does not end the pass: each of the first `k` pairings still makes its page-1 discover call. |
| EnginePages.BuildTriesEveryPairing | data_fetcher.py:58-128 | A whole pass asks for page 1 of every provider, for movies and for TV shows, whatever happened to earlier pairings. |
| EnginePages.RaisingCallbackKeepsEarlierPages | data_fetcher.py:70-77 | A callback that raises when told about page `p` abandons the pairing there. Only records of earlier pages remain, and no discover call for page `p` or later is made. |
| EnginePages.RaisingCallbackMatchesSilentRun | data_fetcher.py:70-119 | If that callback let every earlier page pass, the records are exactly those of the same pages run without a callback and stopped after page `p - 1`. |
| EnginePages.RunPagesFromItems | data_fetcher.py:76-119 | Every record of a page run is the processing result of the item its origin names, on page 1's initial body or on that page's own discover reply. |
| EnginePages.CombinationFromItems | data_fetcher.py:66-119 | A pairing has records only when its first discover call succeeded, and each one comes from the item its origin names. |
| EnginePages.MissingResultsGiveNoRecords | data_fetcher.py:81 | A page whose body has no `results` key contributes no record. |
| EnginePages.RunPagesBound | data_fetcher.py:70-81 | With pages of at most `b` items, pages `page..total` give at most `b` records and one progress call per page, and one discover call per page from 2 on. |
| EnginePages.ClampedPagesAtMost | data_fetcher.py:66-70 | The pages a pairing gets are at most `max_pages` and, when the first call succeeds, at most the `total_pages` it reports; its discover calls are at most `max(1, max_pages)`. |
| EnginePages.CombinationBound | data_fetcher.py:66-81 | With `m` the pairing's clamped pages (none when the first call or `min` raises): at most `m * b` records, `m` progress calls and `max(1, m)` discover calls. |
| EnginePages.AccumulateBound | data_fetcher.py:61-129 | The first `k` pairings together stay within the sums of their clamped pages: that many pages of records and progress calls, and the summed discover calls. |
| EnginePages.SumsBound | data_fetcher.py:61-70 | Summed over `k` pairings, the clamped pages are at most `k * max_pages` and the discover calls at most `k * max(1, max_pages)`. |
| EnginePages.BuildBound | data_fetcher.py:54-129 | A whole pass stays within the sums of its pairings' clamped pages, so at most `2 * len(providers) * max_pages * b` records, `2 * len(providers) * max_pages` progress calls and `2 * len(providers) * max(1, max_pages)` discover calls. |
| EngineOrder.PageEntriesShape | data_fetcher.py:81-119 | One page's records are in item order and carry the pairing's type label and provider name. |
| EngineOrder.RunPagesShape | data_fetcher.py:70-119 | A pairing's pages appear in ascending order, each in item order. Every record is labelled with the pairing, and every progress call reports the pairing's position. |
| EngineOrder.CombinationShape | data_fetcher.py:66-119 | The same for a whole pairing, with pages in `1..max(1, max_pages)`. |
| EngineOrder.AccumulateOrder | data_fetcher.py:61-119 | After `k` pairings, records are in (pairing, page, item) order and each carries the label and provider of the pairing its origin names. |
| EngineOrder.AccumulateProgress | data_fetcher.py:60-74 | After `k` pairings, progress numerators never decrease, stay below `k`, and all share the denominator `len(providers)`. |
| EngineOrder.BuildOrder | data_fetcher.py:54-129 | Over a whole pass:<br>• records are in (pairing, page, item) order;<br>• a record from pairing `i < n` is a movie of provider `i`, otherwise a TV show of provider `i - n`;<br>• progress fractions are `done / n` with `done < 2n`, never decreasing. |
| EngineOrder.MoviesBeforeShows | data_fetcher.py:58-61 | Every record is "Movie" or "TV Show", and no movie record follows a TV record. |
| EngineOrder.CatalogRanks | data_fetcher.py:12-20 | The six display names are distinct: each one's rank in the mapping is its position. |
| EngineOrder.ProvidersInMappingOrder | data_fetcher.py:12-62 | Within one type, records appear with providers in mapping order: Netflix, Apple TV, Amazon Prime, Disney+, HBO Max, Hulu. |
| EngineOrder.ProgressExceedsOne | data_fetcher.py:57-74 | If the last pairing (Hulu TV) reaches a page, the last progress call reports 11/6. The fraction exceeds 1 because the counter spans both types but divides by the provider count only. |
| EngineOrder.BoundedSinkSilences | data_fetcher.py:66-74 | With a callback that raises on fractions above 1, a pairing past position `n` yields no record. When it reaches a page at all, its single progress call raises at page 1 and abandons it. |
| EngineOrder.BoundedSinkDropsLaterPairings | data_fetcher.py:71-129 | With such a callback, no record of a pass comes from a pairing past position `n`. |
| EngineOrder.BoundedSinkKeepsOnlyNetflixShows | data_fetcher.py:12-129 | With the fixed mapping and such a callback, every TV record is a Netflix record. |
| Text.PadOrder | data_fetcher.py:135 | For values below `10^w`, zero-padded fields of width `w` compare as strings exactly as the numbers compare, and are equal exactly when the numbers are. |
| Text.SplitJoin | app.py:232 | Splitting a ", "-joined non-empty list on ", " gives the list back when no element contains ", ". |
| Snapshots.StampText | data_fetcher.py:135 | `%Y%m%d_%H%M%S` of a four-digit-year instant is always 15 characters. |
| Snapshots.SnapshotName | data_fetcher.py:135-136 | A snapshot name is 37 characters long, and its characters 18..33 are the timestamp text. |
| Snapshots.SnapshotNameIsListed | data_fetcher.py:136 | A fresh snapshot's name passes the listing filter: prefix "streaming_content_" and suffix ".csv". |
| Snapshots.StampTextOrder | data_fetcher.py:135 | Timestamp texts compare like their fields: year, month, day, hour, minute, second. |
| Snapshots.StampTextInjective | data_fetcher.py:135 | Two instants with the same timestamp text are the same instant. |
| Snapshots.NameOrderIsFieldOrder | data_fetcher.py:135-136 | Snapshot names compare like their timestamps' fields. |
| Snapshots.NameOrderIsChronological | data_fetcher.py:135-136 | One snapshot name sorts before another exactly when its instant is earlier in seconds, and names are equal exactly when the instants are. |
| Snapshots.Candidates | data_fetcher.py:144 | The filtered listing holds exactly the listed names with the prefix and suffix. |
| Snapshots.Greatest | data_fetcher.py:148 | `sorted(names)[-1]`: `None` only for no names, otherwise a member that no other sorts after. |
| Snapshots.FindLatest | app.py:86-90 | `None` exactly when no listed name has the prefix and suffix; otherwise a listed, filtered name that is at least every other filtered name. |
| Snapshots.LatestIsNewest | data_fetcher.py:144-148 | When the pick is a timestamped snapshot, no timestamped snapshot in the listing is newer. |
| Snapshots.PickNewer | app.py:86-90 | Of two snapshots, the later one is picked, in either listing order. |
| Snapshots.LatestOfTwo | app.py:89 | The June snapshot is picked over the January one. |
| Snapshots.LoadOrCreate | data_fetcher.py:141-153 | A build runs exactly when the refresh is forced or no candidate exists. It returns the fixed mapping's pass and the name stamped with `now`. Otherwise the latest candidate is returned, read if `read_csv` succeeds and raising if not. No key is checked. |
| Filters.Where | app.py:213 | Mask indexing keeps a subsequence of the rows, holding exactly the rows the mask accepts, each as many times as in the input. |
| Filters.Tenths | app.py:184 | A missing value is not numeric. Every text of the form `D+` or `D+.D` is numeric, and a numeric value's text is digits with at most one '.' before a last digit. `D+` reads as ten times its decimal value, and `D+.D` as ten times the whole part plus the last digit. |
| Filters.TenthsOfRatingText | app.py:184 | A rating in OMDb's one-decimal form reads back as its value in tenths. |
| Filters.TenthsOfWholeText | app.py:184 | A whole number in decimal reads as ten tenths per unit. |
| Filters.LeadingZerosIgnored | app.py:184 | Leading zeros do not change what a numeric text reads as ("07.5" reads as "7.5"). |
| Filters.SentinelIsNotNumeric | app.py:184 | "N/A" and a missing rating are not numeric. |
| Filters.Ratings | app.py:186 | The values min and max are taken over are exactly the numeric ratings of the table. |
| Filters.Least | app.py:186 | The minimum is one of the values and at most each of them. |
| Filters.Most | app.py:186 | The maximum is one of the values and at least each of them. |
| Filters.FiltersAreConjunction | app.py:209-234 | The five stages applied one after the other are one mask: that of the conjunction of the stages, where a stage with an empty selection passes every row and the rating stage always runs. The explorer front-end runs the same chain (app1.py:160-185). |
| Filters.ApplyFilters | app.py:209-234 | The filtered table is a subsequence of the input. A row is in it iff it passes every stage, and then as many times as in the input. |
| Filters.EmptySelectionsFilterByRatingOnly | app.py:211-227 | With empty search text, types, providers and genres, only the rating range filters. |
| Filters.SentinelRowsAreDropped | app.py:224-227 | A record whose IMDb value fell back to "N/A" never passes the chain, whatever is selected. |
| Filters.DefaultRangeKeepsRatedRows | app.py:184-193 | With the slider at its default (the table's min to max), the rating stage keeps exactly the rows with a numeric rating. |
| Filters.GenreMatchOnJoinedNames | app.py:230-234 | For genres stored as a ", "-join of a non-empty list of names without ", ", a row matches iff some selected genre is one of those names. |
| Filters.GenreOptions | app.py:197-200 | The option set holds exactly the stripped comma-separated pieces of the non-missing genres strings. |
| Filters.PiecesOfJoinedNames | app.py:197-200 | For a stored ", "-join of a non-empty list of comma-free, stripped names, the options it offers are exactly those names. |
| Filters.EmptyGenreList | app.py:197-234 | An item with an empty genre list is stored as "" in a freshly built table, which offers the empty name as an option and matches it when selected. |
| Filters.ShownOverview | app.py:307 | The shown overview is at most 153 characters. It is unchanged up to 150 characters; otherwise it is the first 150 characters plus "...". |
| Filters.ShownOverviewIdempotent | app.py:307 | Truncating a shown overview again changes nothing. |
| Filters.CardOverviewRail | app.py:305-309 | A missing overview shows "No description available"; otherwise the truncated text. |
| Filters.CardOverviewExplorer | app1.py:233-234 | The overview line appears iff the overview is present, and then holds the truncated text. |
| Sessions.GetApiKeys | app.py:16-30 | Both keys come from `secrets["api_keys"]` when every lookup resolves. Otherwise both come from the session state, with "" for a missing entry. |
| Sessions.PartialSecretsAreIgnored | app.py:18-25 | A secrets table with only the TMDB key does not supply it; the session value is used. |
| Sessions.NoSourceGivesEmptyKeys | app.py:22-27 | With no secrets file and an empty session, the keys are not both present. |
| Sessions.Sidebar | app.py:36-48 | The inputs appear exactly when the fetched keys are not both non-empty. The typed keys are then used and written to the session under `tmdb_api_key` and `omdb_api_key`, other session entries are kept, and nothing else is added. Otherwise the fetched keys and session are kept. |
| Sessions.TypedKeysPersist | app.py:41-46 | While secrets do not resolve, the keys typed in one run are the keys the next run fetches. |
| Sessions.RailStart | app.py:93-140 | The rail front-end's decision table:<br>• the table is kept iff it exists and refresh was not pressed;<br>• a snapshot is loaded iff there is a latest one, refresh is not forced and it reads;<br>• a rebuild is attempted iff there is no latest snapshot, refresh is forced, or reading raised;<br>• an attempted rebuild stops on a missing key, else builds with `force_refresh=True`;<br>• a read error is shown iff reading raised. |
| Sessions.ExplorerStart | app1.py:64-94 | Explorer: kept iff the table exists and refresh was not pressed. Otherwise it stops iff a key is missing, else follows `load_or_create_database` with the user's force flag: reuse, read error or fresh build. |
| Sessions.KeysCheckedFirstOnlyInExplorer | app1.py:64-67 | With a readable snapshot present and a key missing, the rail front-end loads it while the explorer front-end stops. |
| Sessions.ExplorerForceRefresh | app1.py:76-82 | In the explorer front-end, rebuild happens iff the force flag is set or no snapshot is listed; a reuse or read error names the latest snapshot. |
| Sessions.ExplorerRebuildBudget | app1.py:29 | With the slider in 1..10, a rebuild makes at most 120 discover calls and 120 progress calls, and at most 120 pages of records. |
| Sessions.RailRebuildBudget | app.py:68 | With the slider in 2..20, a rebuild makes at most 240 discover calls and 240 progress calls, and at most 240 pages of records. |

## Left out

- HTTP calls and URL building: each call is an oracle in `Services` that returns a body or raises. A reply is a fixed function of the request, so a title listed under two providers gets the same details, external-ids and OMDb replies both times; the source makes independent calls that can differ. The region parameter and the API keys are not passed to the oracles.
- `time.sleep` pacing: it has no effect on results.
- pandas DataFrame construction and `to_csv`/`read_csv`: no CSV round trip is claimed.
  - Reading a snapshot is the `readable` predicate.
  - A build's table is its list of records, with no conversion through CSV.
  - Failures while writing the snapshot are not modelled.
- `os.listdir` and `datetime.now`: they become the `listing` and `now` parameters.
- Streamlit widgets, messages, the progress bar, `st.stop`, `st.experimental_rerun`, the tabs, card layout, poster and IMDb links, the download button and all plotly charts: these are UI.
  - The explorer's key inputs (app1.py:16-26) are modelled only as the `keys` parameter of `Sessions.ExplorerStart`.
  - The per-card IMDb rating, genre and release-date captions are not modelled.
- The `print` log of skipped items and pairings: it has no effect on results.
- Floating point:
  - `popularity` and `vote_average` are carried as opaque `real` values.
  - The progress fraction is kept as exact numerator and denominator instead of a float.
  - Rating slider bounds are in tenths.
- `Filters.Tenths`: `pd.to_numeric(errors="coerce")` is modelled only for the forms `D+` and `D+.D`. Signs, exponents, more decimals, surrounding whitespace, "nan" and "inf" read as not numeric.
- `Filters.TitleMatches`: `str.contains` is modelled as a literal, case-insensitive substring match over ASCII. Regular-expression meaning of the search text and Unicode case folding are not modelled.
- `sort_values` ordering (app.py:239-252, app1.py:190-203): the sort key choice, pandas' unstable default sort and NaN placement are not modelled.
- `Snapshots.StampText`: only years 1000..9999. `%Y` padding of smaller years depends on the platform.
- `total_pages` values other than an integer, a missing key or a value `min` cannot compare with an integer (such as JSON null or a string) are not modelled. A float is one of those left out: it compares, and then `range` raises on it.
- `Sessions.GetApiKeys`: a secrets file that exists but fails to parse is treated like a missing one. Only `KeyError` and `FileNotFoundError` are caught in the source; other exceptions are not modelled.
- `Sessions.RailStart`: an exception while building (inside the `try` at app.py:119-137) is not modelled; the fetcher's own loop never raises, and the write failure that could is left out above.
- JSON null is read like a missing key. The source treats four of them differently:
  - `results: null`: iterating it raises, so the pairing is abandoned; the model reads it as no items.
  - `genres: null`: the key is present and joining raises, so the item is dropped; the model keeps it without genres.
  - `id: null`: the item goes on with `tmdb_id` None; the model drops it like a missing key.
  - `imdbRating: null`: `.get` returns None, not "N/A"; the model stores "N/A".
- An empty build: `df["type"]` raises `KeyError` on a table without columns (app.py:165, app1.py:116). The front-ends' views of an empty table are not modelled.
- A table where no record has genres: `df["genres"]` raises `KeyError` (app.py:198, app1.py:149). `Filters.GenreOptions` assumes the column exists.
- `Text.Strip`: only ASCII whitespace is stripped; Python's `str.strip` also strips Unicode whitespace (app.py:199).
- Behaviours of the code worth noting:
  - `load_or_create_database` lets a failing `read_csv` raise (`Snapshots.ReadRaised`) instead of falling back to a rebuild.
  - A record's title can be missing, because the code stores `item.get("title")` or `item.get("name")` as is.
  - An item whose details, external-ids or OMDb call raises is dropped; it is not kept with placeholder values.
  - Progress is reported before each page is fetched, and its fraction can exceed 1 (`EngineOrder.ProgressExceedsOne`).
  - `load_or_create_database` checks no API key itself; only the front-ends do.
  - An empty genre list is joined to "", and splitting "" gives [""]. So in a freshly built table the genre options hold the empty name (`Filters.EmptyGenreList`); a snapshot read back from CSV would hold a missing value there instead, which is outside this model.

=== FILE: catalog.dfy ===
/** The fetcher's static configuration: the two content types and the provider
    mapping, in the order the fetcher iterates them. */
module Catalog {

  datatype ContentType = Movie | Tv {

    /** The path segment the catalogue API uses ("movie", "tv"). */
    function Segment(): string {
      match this
      case Movie => "movie"
      case Tv => "tv"
    }

    /** The value of a record's `type` column. */
    function Label(): string {
      match this
      case Movie => "Movie"
      case Tv => "TV Show"
    }
  }

  /** One entry of the provider mapping: the catalogue's watch-provider id and the
      display name stored in every record. */
  datatype Provider = Provider(id: int, name: string)

  /** The mapping in its (insertion) iteration order. */
  const Providers: seq<Provider> := [
    Provider(8, "Netflix"),
    Provider(2, "Apple TV"),
    Provider(9, "Amazon Prime"),
    Provider(337, "Disney+"),
    Provider(384, "HBO Max"),
    Provider(15, "Hulu")
  ]
}

=== FILE: common.dfy ===
/** The optional-value and call-outcome types shared by every module of the model. */
module Common {

  /** Python's `None` versus a present value. */
  datatype Option<+T> = None | Some(value: T) {

    /** The value, or `default` when absent (Python's `dict.get(key, default)`). */
    function GetOr(default: T): T {
      match this
      case Some(v) => v
      case None => default
    }
  }

  /** The outcome of one outbound HTTP call: a decoded JSON body, or an exception
      (transport error or undecodable body). An HTTP error status is not
      checked: its error body arrives as `Ok`. */
  datatype Reply<+T> = Ok(body: T) | Raised
}

=== FILE: engine.dfy ===
/** The aggregation pass of the fetcher: content type x provider x page x item,
    with the outbound calls supplied as `Services` and the progress callback as a
    function that says whether it raises. */
module Engine {
  import opened Common
  import opened Text
  import opened Catalog
  import opened Responses

  /** The sentinel stored when an IMDb value could not be resolved. */
  const NotAvailable: string := "N/A"

  /** One output row, with the columns the fetcher writes. */
  datatype Record = Record(
    kind: string,
    title: Option<string>,
    overview: Option<string>,
    tmdbId: int,
    imdbId: Option<string>,
    provider: string,
    releaseDate: Option<string>,
    tmdbRating: Option<real>,
    popularity: Option<real>,
    posterPath: Option<string>,
    genres: Option<string>,
    imdbRating: string,
    imdbVotes: string)

  /** Python truthiness of an optional string: present and non-empty. */
  predicate Truthy(s: Option<string>) {
    s.Some? && |s.value| > 0
  }

  /** The `name` of every genre, or `None` when one of them has no `name` key
      (the list comprehension raises `KeyError`). */
  function GenreNames(gs: seq<Genre>): (r: Option<seq<string>>)
    ensures r.Some? <==> forall i :: 0 <= i < |gs| ==> gs[i].name.Some?
    ensures r.Some? ==> |r.value| == |gs| && forall i :: 0 <= i < |gs| ==> r.value[i] == gs[i].name.value
    decreases |gs|
  {
    if |gs| == 0 then Some([])
    else
      match (gs[0].name, GenreNames(gs[1..]))
      case (Some(n), Some(ns)) => Some([n] + ns)
      case _ => None
  }

  /** The `genres` column: absent without a `genres` key, else the ", "-joined names. */
  function GenresColumn(d: Details): Reply<Option<string>> {
    match d.genres
    case None => Ok(None)
    case Some(gs) =>
      match GenreNames(gs)
      case None => Raised
      case Some(names) => Ok(Some(Join(", ", names)))
  }

  /** The `imdb_rating` and `imdb_votes` columns; OMDb is asked only for a truthy id. */
  function ImdbColumns(svc: Services, imdbId: Option<string>): Reply<(string, string)> {
    if Truthy(imdbId) then
      match svc.omdb(imdbId.value)
      case Raised => Raised
      case Ok(o) => Ok((o.imdbRating.GetOr(NotAvailable), o.imdbVotes.GetOr(NotAvailable)))
    else Ok((NotAvailable, NotAvailable))
  }

  /** The exceptions that end the processing of one item: no `id` key, a failed
      details or external-ids call, a genre without `name`, a failed OMDb call. */
  predicate ItemRaises(svc: Services, ct: ContentType, item: Item) {
    || item.id.None?
    || svc.details(ct, item.id.value).Raised?
    || svc.externalIds(ct, item.id.value).Raised?
    || (var gs := svc.details(ct, item.id.value).body.genres;
        gs.Some? && exists i :: 0 <= i < |gs.value| && gs.value[i].name.None?)
    || (var ext := svc.externalIds(ct, item.id.value).body;
        Truthy(ext.imdbId) && svc.omdb(ext.imdbId.value).Raised?)
  }

  /** The record for one discover item, or `None` when processing it raised. */
  function ProcessItem(svc: Services, ct: ContentType, providerName: string, item: Item): (r: Option<Record>)
    ensures r.None? <==> ItemRaises(svc, ct, item)
    ensures r.Some? ==>
      var rec := r.value;
      var id := item.id.value;
      var details := svc.details(ct, id).body;
      var ext := svc.externalIds(ct, id).body;
      && rec.kind == ct.Label()
      && rec.title == (if ct == Tv then item.name else item.title)
      && rec.releaseDate == (if ct == Tv then item.firstAirDate else item.releaseDate)
      && rec.provider == providerName
      && rec.tmdbId == id
      && rec.imdbId == ext.imdbId
      && rec.overview == item.overview
      && rec.posterPath == item.posterPath
      && rec.tmdbRating == item.voteAverage
      && rec.popularity == item.popularity
      && (rec.genres.None? <==> details.genres.None?)
      && (rec.genres.Some? ==>
            var gs := details.genres.value;
            rec.genres.value == Join(", ", seq(|gs|, i requires 0 <= i < |gs| => gs[i].name.value)))
      && (!Truthy(ext.imdbId) ==> rec.imdbRating == NotAvailable && rec.imdbVotes == NotAvailable)
      && (Truthy(ext.imdbId) ==>
            var o := svc.omdb(ext.imdbId.value).body;
            rec.imdbRating == o.imdbRating.GetOr(NotAvailable) && rec.imdbVotes == o.imdbVotes.GetOr(NotAvailable))
  {
    match item.id
    case None => None
    case Some(id) =>
      match (svc.details(ct, id), svc.externalIds(ct, id))
      case (Ok(details), Ok(ext)) =>
        (match (GenresColumn(details), ImdbColumns(svc, ext.imdbId))
         case (Ok(genres), Ok((rating, votes))) =>
           assert genres.Some? ==>
             var gs := details.genres.value;
             var names := GenreNames(gs).value;
             names == seq(|gs|, i requires 0 <= i < |gs| => gs[i].name.value) && genres.value == Join(", ", names);
           Some(Record(
             kind := ct.Label(),
             title := if ct == Tv then item.name else item.title,
             overview := item.overview,
             tmdbId := id,
             imdbId := ext.imdbId,
             provider := providerName,
             releaseDate := if ct == Tv then item.firstAirDate else item.releaseDate,
             tmdbRating := item.voteAverage,
             popularity := item.popularity,
             posterPath := item.posterPath,
             genres := genres,
             imdbRating := rating,
             imdbVotes := votes))
         case _ => None)
      case _ => None
  }

  /** One (content type, provider) pairing; `position` is the fetcher's
      `provider_idx - 1`, counted across both content types. */
  datatype Combo = Combo(ct: ContentType, provider: Provider, position: nat)

  /** The pairings of one content type, in provider order, numbered from `start`. */
  function CombosOf(ct: ContentType, providers: seq<Provider>, start: nat): (cs: seq<Combo>)
    ensures |cs| == |providers|
    ensures forall j :: 0 <= j < |cs| ==> cs[j] == Combo(ct, providers[j], start + j)
  {
    seq(|providers|, j requires 0 <= j < |providers| => Combo(ct, providers[j], start + j))
  }

  /** The nested iteration order: every movie pairing, then every TV pairing. */
  function Combos(providers: seq<Provider>): (cs: seq<Combo>)
    ensures |cs| == 2 * |providers|
    ensures forall i :: 0 <= i < |cs| ==> cs[i].position == i
    ensures forall i :: 0 <= i < |providers| ==> cs[i] == Combo(Movie, providers[i], i)
    ensures forall i :: |providers| <= i < |cs| ==> cs[i] == Combo(Tv, providers[i - |providers|], i)
  {
    CombosOf(Movie, providers, 0) + CombosOf(Tv, providers, |providers|)
  }

  /** Where a record came from: pairing position, page number, index in `results`. */
  datatype Origin = Origin(combo: nat, page: nat, index: nat)

  datatype Entry = Entry(origin: Origin, record: Record)

  /** One call of the progress callback: a message and the fraction `done / of`. */
  datatype ProgressCall = ProgressCall(message: string, done: nat, of: nat)

  /** The callback, if one was given; its value says whether a call raises. */
  type Callback = Option<ProgressCall -> bool>

  function ProgressMessage(c: Combo, page: nat, total: nat): string {
    "Processing " + c.provider.name + " " + c.ct.Segment() + "s - page " + Decimal(page) + "/" + Decimal(total)
  }

  /** Why the rest of a pairing was abandoned. */
  datatype Abandon = DiscoverRaised(page: nat) | TotalPagesIncomparable | CallbackRaised(page: nat)

  datatype Outcome = Completed | Abandoned(why: Abandon)

  /** What one pairing (or a tail of its pages) contributes: records, progress
      calls, discover requests, and whether it ran to the end. */
  datatype Run = Run(entries: seq<Entry>, progress: seq<ProgressCall>, requests: seq<Request>, outcome: Outcome)

  /** Keeps the records of the items that did not raise, in item order, each
      tagged with its origin (the item's index in `results`). */
  function Collect(c: Combo, page: nat, outcomes: seq<Option<Record>>): (es: seq<Entry>)
    ensures |es| <= |outcomes|
    ensures forall k :: 0 <= k < |es| ==>
      && es[k].origin.combo == c.position
      && es[k].origin.page == page
      && es[k].origin.index < |outcomes|
      && outcomes[es[k].origin.index] == Some(es[k].record)
    ensures forall k1, k2 :: 0 <= k1 < k2 < |es| ==> es[k1].origin.index < es[k2].origin.index
    decreases |outcomes|
  {
    if |outcomes| == 0 then []
    else
      var n := |outcomes| - 1;
      var init := Collect(c, page, outcomes[..n]);
      assert forall k :: 0 <= k < |init| ==> outcomes[..n][init[k].origin.index] == outcomes[init[k].origin.index];
      match outcomes[n]
      case None => init
      case Some(r) => init + [Entry(Origin(c.position, page, n), r)]
  }

  /** The `results` indices an entry sequence has records for. */
  function Indices(es: seq<Entry>): set<nat> {
    set k | 0 <= k < |es| :: es[k].origin.index
  }

  /** The indices of the items that did not raise. */
  function KeptIndices(outcomes: seq<Option<Record>>): set<nat> {
    set i | 0 <= i < |outcomes| && outcomes[i].Some? :: i
  }

  /** `Collect` drops nothing but the items that raised: its entries cover exactly
      the indices whose processing gave a record. */
  lemma {:induction false} CollectKeepsEveryRecord(c: Combo, page: nat, outcomes: seq<Option<Record>>)
    ensures Indices(Collect(c, page, outcomes)) == KeptIndices(outcomes)
    decreases |outcomes|
  {
    if |outcomes| > 0 {
      var n := |outcomes| - 1;
      var init := Collect(c, page, outcomes[..n]);
      CollectKeepsEveryRecord(c, page, outcomes[..n]);
      KeptIndicesStep(outcomes);
      if outcomes[n].Some? {
        IndicesAppend(init, Entry(Origin(c.position, page, n), outcomes[n].value));
      }
    }
  }

  lemma KeptIndicesStep(outcomes: seq<Option<Record>>)
    requires |outcomes| > 0
    ensures var n := |outcomes| - 1;
      KeptIndices(outcomes) == KeptIndices(outcomes[..n]) + (if outcomes[n].Some? then {n} else {})
  {
    var n := |outcomes| - 1;
    forall i | 0 <= i < n
      ensures outcomes[..n][i] == outcomes[i]
    {
    }
  }

  lemma IndicesAppend(es: seq<Entry>, e: Entry)
    ensures Indices(es + [e]) == Indices(es) + {e.origin.index}
  {
    var all := es + [e];
    forall x | x in Indices(all)
      ensures x in Indices(es) + {e.origin.index}
    {
      var k :| 0 <= k < |all| && all[k].origin.index == x;
      if k < |es| {
        assert all[k] == es[k];
      }
    }
    forall x | x in Indices(es)
      ensures x in Indices(all)
    {
      var k :| 0 <= k < |es| && es[k].origin.index == x;
      assert all[k] == es[k];
    }
    assert all[|es|] == e;
  }

  /** What processing each item of a page gives, item by item. */
  function ItemOutcomes(svc: Services, c: Combo, items: seq<Item>): (os: seq<Option<Record>>)
    ensures |os| == |items|
    ensures forall i :: 0 <= i < |items| ==> os[i] == ProcessItem(svc, c.ct, c.provider.name, items[i])
  {
    seq(|items|, i requires 0 <= i < |items| => ProcessItem(svc, c.ct, c.provider.name, items[i]))
  }

  /** The records one page contributes: an item that raised is dropped, every
      other item gives its record, and item order is kept. */
  function PageEntries(svc: Services, c: Combo, page: nat, items: seq<Item>): seq<Entry> {
    Collect(c, page, ItemOutcomes(svc, c, items))
  }

  /** Pages `page..total` of a pairing. Each page first calls the callback, then
      reuses the initial body (page 1) or calls discover, then processes its items. */
  function RunPages(svc: Services, cb: Callback, c: Combo, of: nat, initial: DiscoverPage, page: nat, total: nat): Run
    requires 1 <= page
    decreases total + 1 - page
  {
    if page > total then Run([], [], [], Completed)
    else
      var call := ProgressCall(ProgressMessage(c, page, total), c.position, of);
      var progress := if cb.Some? then [call] else [];
      if cb.Some? && cb.value(call) then Run([], progress, [], Abandoned(CallbackRaised(page)))
      else
        var requests := if page > 1 then [Request(c.ct, c.provider.id, page)] else [];
        var reply := if page > 1 then svc.discover(c.ct, c.provider.id, page) else Ok(initial);
        match reply
        case Raised => Run([], progress, requests, Abandoned(DiscoverRaised(page)))
        case Ok(data) =>
          var rest := RunPages(svc, cb, c, of, initial, page + 1, total);
          Run(PageEntries(svc, c, page, data.results.GetOr([])) + rest.entries,
              progress + rest.progress, requests + rest.requests, rest.outcome)
  }

  /** `min(total_pages, max_pages)` with a missing `total_pages` read as 1, or
      `None` when `min` raises on an incomparable value. */
  function ClampPages(t: TotalPages, maxPages: int): (r: Option<int>)
    ensures r.None? <==> t.Incomparable?
    ensures r.Some? ==>
      var reported := if t.Count? then t.n else 1;
      r.value <= maxPages && r.value <= reported && (r.value == maxPages || r.value == reported)
  {
    match t
    case Absent => Some(if 1 <= maxPages then 1 else maxPages)
    case Count(n) => Some(if n <= maxPages then n else maxPages)
    case Incomparable => None
  }

  /** The number of pages `range(1, n + 1)` visits. */
  function PageCount(n: int): nat {
    if n < 0 then 0 else n
  }

  /** One pairing: the initial discover call, the clamp, then its pages. */
  function RunCombination(svc: Services, cb: Callback, c: Combo, of: nat, maxPages: int): Run {
    var first := [Request(c.ct, c.provider.id, 1)];
    match svc.discover(c.ct, c.provider.id, 1)
    case Raised => Run([], [], first, Abandoned(DiscoverRaised(1)))
    case Ok(initial) =>
      match ClampPages(initial.totalPages, maxPages)
      case None => Run([], [], first, Abandoned(TotalPagesIncomparable))
      case Some(n) =>
        var rest := RunPages(svc, cb, c, of, initial, 1, PageCount(n));
        Run(rest.entries, rest.progress, first + rest.requests, rest.outcome)
  }

  /** What the whole pass produced; abandoned pairings keep what they appended. */
  datatype BuildResult = BuildResult(entries: seq<Entry>, progress: seq<ProgressCall>, requests: seq<Request>)

  function Append(acc: BuildResult, run: Run): BuildResult {
    BuildResult(acc.entries + run.entries, acc.progress + run.progress, acc.requests + run.requests)
  }

  /** The first `k` pairings of `cs`, run one after the other. */
  function Accumulate(svc: Services, cb: Callback, cs: seq<Combo>, of: nat, maxPages: int, k: nat): BuildResult
    requires k <= |cs|
  {
    if k == 0 then BuildResult([], [], [])
    else Append(Accumulate(svc, cb, cs, of, maxPages, k - 1), RunCombination(svc, cb, cs[k - 1], of, maxPages))
  }

  /** The whole pass over a provider mapping; fractions are over `|providers|`. */
  function Build(svc: Services, cb: Callback, providers: seq<Provider>, maxPages: int): BuildResult {
    var cs := Combos(providers);
    Accumulate(svc, cb, cs, |providers|, maxPages, |cs|)
  }

  /** The records, without their origins. */
  function Records(es: seq<Entry>): (rs: seq<Record>)
    ensures |rs| == |es|
    ensures forall i :: 0 <= i < |es| ==> rs[i] == es[i].record
  {
    seq(|es|, i requires 0 <= i < |es| => es[i].record)
  }

  /** The pairing the nested loops reach at content type `t` and provider `j`. */
  lemma ComboAt(providers: seq<Provider>, t: nat, j: nat)
    requires t < 2 && j < |providers|
    ensures t * |providers| + j < |Combos(providers)|
    ensures Combos(providers)[t * |providers| + j] == Combo([Movie, Tv][t], providers[j], t * |providers| + j)
  {
    if t == 1 {
      assert t * |providers| + j == |providers| + j;
    }
  }

  /** Where the pairings of content type `t` start in the iteration order, for
      `n` providers; `t == 2` is the end of the iteration. */
  function TypeStart(t: nat, n: nat): nat {
    if t == 0 then 0 else if t == 1 then n else 2 * n
  }

  /** One step of the nested loops extends the fold by the pairing they reach. */
  lemma NextPairing(svc: Services, cb: Callback, providers: seq<Provider>, maxPages: int, t: nat, j: nat)
    requires t < 2 && j < |providers|
    ensures var cs := Combos(providers);
      var k := TypeStart(t, |providers|) + j;
      && k < |cs|
      && Accumulate(svc, cb, cs, |providers|, maxPages, k + 1)
         == Append(Accumulate(svc, cb, cs, |providers|, maxPages, k),
                   RunCombination(svc, cb, Combo([Movie, Tv][t], providers[j], k), |providers|, maxPages))
  {
    ComboAt(providers, t, j);
    assert t * |providers| + j == TypeStart(t, |providers|) + j;
  }

  /** The fetcher's nested loops over content types and providers, with the
      running `provider_idx`; they compute exactly the fold `Build`. */
  method BuildContentDatabase(svc: Services, cb: Callback, providers: seq<Provider>, maxPages: int)
    returns (result: BuildResult)
    ensures result == Build(svc, cb, providers, maxPages)
  {
    var cs := Combos(providers);
    var types := [Movie, Tv];
    var n := |providers|;
    result := BuildResult([], [], []);
    var providerIdx := 0;
    var t := 0;
    while t < 2
      invariant 0 <= t <= 2
      invariant providerIdx == TypeStart(t, n)
      invariant result == Accumulate(svc, cb, cs, n, maxPages, providerIdx)
    {
      var j := 0;
      while j < n
        invariant 0 <= j <= n
        invariant providerIdx == TypeStart(t, n) + j
        invariant result == Accumulate(svc, cb, cs, n, maxPages, providerIdx)
      {
        NextPairing(svc, cb, providers, maxPages, t, j);
        providerIdx := providerIdx + 1;
        var run := RunCombination(svc, cb, Combo(types[t], providers[j], providerIdx - 1), n, maxPages);
        result := Append(result, run);
        j := j + 1;
      }
      t := t + 1;
    }
  }
}

=== FILE: engine_order.dfy ===
/** The order of the fetcher's output and of its progress calls: pairings in
    iteration order (every movie pairing before every TV pairing, providers in
    mapping order), pages ascending, items in page order. */
module EngineOrder {
  import opened Common
  import opened Catalog
  import opened Responses
  import opened Engine

  /** Strict lexicographic order on origins: pairing, then page, then item index. */
  predicate Before(a: Origin, b: Origin) {
    || a.combo < b.combo
    || (a.combo == b.combo && a.page < b.page)
    || (a.combo == b.combo && a.page == b.page && a.index < b.index)
  }

  predicate Ordered(es: seq<Entry>) {
    forall i, j :: 0 <= i < j < |es| ==> Before(es[i].origin, es[j].origin)
  }

  /** Every entry comes from pairing `c`, from a page in `first..last`, and its
      record carries that pairing's type label and provider name. */
  predicate FromPairing(es: seq<Entry>, c: Combo, first: nat, last: nat) {
    forall k :: 0 <= k < |es| ==>
      && es[k].origin.combo == c.position
      && first <= es[k].origin.page <= last
      && es[k].record.kind == c.ct.Label()
      && es[k].record.provider == c.provider.name
  }

  /** Every progress call of a pairing reports the fraction `position / of`. */
  predicate ReportsPosition(ps: seq<ProgressCall>, c: Combo, of: nat) {
    forall k :: 0 <= k < |ps| ==> ps[k].done == c.position && ps[k].of == of
  }

  predicate NonDecreasing(ps: seq<ProgressCall>) {
    forall i, j :: 0 <= i < j < |ps| ==> ps[i].done <= ps[j].done
  }

  lemma OrderedAppend(a: seq<Entry>, b: seq<Entry>)
    requires Ordered(a) && Ordered(b)
    requires forall i, j :: 0 <= i < |a| && 0 <= j < |b| ==> Before(a[i].origin, b[j].origin)
    ensures Ordered(a + b)
  {
    forall i, j | 0 <= i < j < |a + b|
      ensures Before((a + b)[i].origin, (a + b)[j].origin)
    {
      if j < |a| {
        assert (a + b)[i] == a[i] && (a + b)[j] == a[j];
      } else if i >= |a| {
        assert (a + b)[i] == b[i - |a|] && (a + b)[j] == b[j - |a|];
      } else {
        assert (a + b)[i] == a[i] && (a + b)[j] == b[j - |a|];
      }
    }
  }

  lemma NonDecreasingAppend(a: seq<ProgressCall>, b: seq<ProgressCall>)
    requires NonDecreasing(a) && NonDecreasing(b)
    requires forall i, j :: 0 <= i < |a| && 0 <= j < |b| ==> a[i].done <= b[j].done
    ensures NonDecreasing(a + b)
  {
    forall i, j | 0 <= i < j < |a + b|
      ensures (a + b)[i].done <= (a + b)[j].done
    {
      if j < |a| {
        assert (a + b)[i] == a[i] && (a + b)[j] == a[j];
      } else if i >= |a| {
        assert (a + b)[i] == b[i - |a|] && (a + b)[j] == b[j - |a|];
      } else {
        assert (a + b)[i] == a[i] && (a + b)[j] == b[j - |a|];
      }
    }
  }

  /** The records of one page keep item order and carry the pairing's label and provider. */
  lemma PageEntriesShape(svc: Services, c: Combo, page: nat, items: seq<Item>)
    ensures Ordered(PageEntries(svc, c, page, items))
    ensures FromPairing(PageEntries(svc, c, page, items), c, page, page)
  {
    var os := ItemOutcomes(svc, c, items);
    var es := PageEntries(svc, c, page, items);
    forall k | 0 <= k < |es|
      ensures es[k].record.kind == c.ct.Label() && es[k].record.provider == c.provider.name
    {
      assert os[es[k].origin.index] == Some(es[k].record);
    }
  }

  /** Pages `page..total` of a pairing: ascending pages, each in item order. */
  lemma {:induction false} RunPagesShape(svc: Services, cb: Callback, c: Combo, of: nat,
                                         initial: DiscoverPage, page: nat, total: nat)
    requires 1 <= page
    ensures var run := RunPages(svc, cb, c, of, initial, page, total);
      && Ordered(run.entries)
      && FromPairing(run.entries, c, page, total)
      && ReportsPosition(run.progress, c, of)
    decreases total + 1 - page
  {
    if page <= total {
      var run := RunPages(svc, cb, c, of, initial, page, total);
      var call := ProgressCall(ProgressMessage(c, page, total), c.position, of);
      var progress := if cb.Some? then [call] else [];
      assert ReportsPosition(progress, c, of);
      var reply := if page > 1 then svc.discover(c.ct, c.provider.id, page) else Ok(initial);
      if !(cb.Some? && cb.value(call)) && reply.Ok? {
        var rest := RunPages(svc, cb, c, of, initial, page + 1, total);
        RunPagesShape(svc, cb, c, of, initial, page + 1, total);
        var here := PageEntries(svc, c, page, reply.body.results.GetOr([]));
        PageEntriesShape(svc, c, page, reply.body.results.GetOr([]));
        PagesStep(here, rest.entries, c, page, total);
        ReportsAppend(progress, rest.progress, c, of);
        assert run.entries == here + rest.entries && run.progress == progress + rest.progress;
      } else {
        assert run.entries == [] && run.progress == progress;
      }
    }
  }

  lemma ReportsAppend(a: seq<ProgressCall>, b: seq<ProgressCall>, c: Combo, of: nat)
    requires ReportsPosition(a, c, of) && ReportsPosition(b, c, of)
    ensures ReportsPosition(a + b, c, of)
  {
    forall k | 0 <= k < |a + b|
      ensures (a + b)[k].done == c.position && (a + b)[k].of == of
    {
      if k < |a| {
        assert (a + b)[k] == a[k];
      } else {
        assert (a + b)[k] == b[k - |a|];
      }
    }
  }

  /** One page's records followed by the later pages' records. */
  lemma PagesStep(here: seq<Entry>, rest: seq<Entry>, c: Combo, page: nat, total: nat)
    requires Ordered(here) && FromPairing(here, c, page, page)
    requires Ordered(rest) && FromPairing(rest, c, page + 1, total)
    requires page <= total
    ensures Ordered(here + rest) && FromPairing(here + rest, c, page, total)
  {
    OrderedAppend(here, rest);
    var all := here + rest;
    forall k | 0 <= k < |all|
      ensures all[k].origin.combo == c.position && page <= all[k].origin.page <= total
      ensures all[k].record.kind == c.ct.Label() && all[k].record.provider == c.provider.name
    {
      if k < |here| {
        assert all[k] == here[k];
      } else {
        assert all[k] == rest[k - |here|];
      }
    }
  }

  lemma CombinationShape(svc: Services, cb: Callback, c: Combo, of: nat, maxPages: int)
    ensures var run := RunCombination(svc, cb, c, of, maxPages);
      && Ordered(run.entries)
      && FromPairing(run.entries, c, 1, if maxPages < 1 then 1 else maxPages)
      && ReportsPosition(run.progress, c, of)
  {
    match svc.discover(c.ct, c.provider.id, 1)
    case Raised =>
    case Ok(initial) =>
      match ClampPages(initial.totalPages, maxPages)
      case None =>
      case Some(n) =>
        RunPagesShape(svc, cb, c, of, initial, 1, PageCount(n));
  }

  /** Every entry comes from one of the first `k` pairings and carries that
      pairing's type label and provider name. */
  predicate Labelled(es: seq<Entry>, cs: seq<Combo>, k: nat)
    requires k <= |cs|
  {
    forall e :: 0 <= e < |es| ==>
      && es[e].origin.combo < k
      && es[e].record.kind == cs[es[e].origin.combo].ct.Label()
      && es[e].record.provider == cs[es[e].origin.combo].provider.name
  }

  /** The first `k - 1` pairings' records followed by pairing `k - 1`'s. */
  lemma OrderStep(prev: seq<Entry>, run: seq<Entry>, cs: seq<Combo>, k: nat, first: nat, last: nat)
    requires 0 < k <= |cs| && cs[k - 1].position == k - 1
    requires Ordered(prev) && Labelled(prev, cs, k - 1)
    requires Ordered(run) && FromPairing(run, cs[k - 1], first, last)
    ensures Ordered(prev + run) && Labelled(prev + run, cs, k)
  {
    OrderedAppend(prev, run);
    var all := prev + run;
    forall e | 0 <= e < |all|
      ensures all[e].origin.combo < k
      ensures all[e].record.kind == cs[all[e].origin.combo].ct.Label()
      ensures all[e].record.provider == cs[all[e].origin.combo].provider.name
    {
      if e >= |prev| {
        assert all[e] == run[e - |prev|];
      } else {
        assert all[e] == prev[e];
      }
    }
  }

  /** The first `k` pairings: entries in origin order, each from the pairing its
      origin names. */
  lemma {:induction false} AccumulateOrder(svc: Services, cb: Callback, cs: seq<Combo>, of: nat, maxPages: int, k: nat)
    requires k <= |cs|
    requires forall i :: 0 <= i < |cs| ==> cs[i].position == i
    ensures var acc := Accumulate(svc, cb, cs, of, maxPages, k);
      Ordered(acc.entries) && Labelled(acc.entries, cs, k)
  {
    if k > 0 {
      var prev := Accumulate(svc, cb, cs, of, maxPages, k - 1);
      var run := RunCombination(svc, cb, cs[k - 1], of, maxPages);
      AccumulateOrder(svc, cb, cs, of, maxPages, k - 1);
      CombinationShape(svc, cb, cs[k - 1], of, maxPages);
      OrderStep(prev.entries, run.entries, cs, k, 1, if maxPages < 1 then 1 else maxPages);
    }
  }

  /** Progress calls of the first `k - 1` pairings followed by pairing `k - 1`'s. */
  lemma ProgressStep(prev: seq<ProgressCall>, run: seq<ProgressCall>, c: Combo, of: nat, k: nat)
    requires 0 < k && c.position == k - 1
    requires NonDecreasing(prev) && forall e :: 0 <= e < |prev| ==> prev[e].done < k - 1 && prev[e].of == of
    requires ReportsPosition(run, c, of)
    ensures NonDecreasing(prev + run)
    ensures forall e :: 0 <= e < |prev + run| ==> (prev + run)[e].done < k && (prev + run)[e].of == of
  {
    NonDecreasingAppend(prev, run);
    var all := prev + run;
    forall e | 0 <= e < |all|
      ensures all[e].done < k && all[e].of == of
    {
      if e >= |prev| {
        assert all[e] == run[e - |prev|];
      } else {
        assert all[e] == prev[e];
      }
    }
  }

  /** The first `k` pairings: progress fractions never decrease and their
      numerators stay below `k`. */
  lemma {:induction false} AccumulateProgress(svc: Services, cb: Callback, cs: seq<Combo>, of: nat, maxPages: int, k: nat)
    requires k <= |cs|
    requires forall i :: 0 <= i < |cs| ==> cs[i].position == i
    ensures var acc := Accumulate(svc, cb, cs, of, maxPages, k);
      && NonDecreasing(acc.progress)
      && (forall e :: 0 <= e < |acc.progress| ==> acc.progress[e].done < k && acc.progress[e].of == of)
  {
    if k > 0 {
      var prev := Accumulate(svc, cb, cs, of, maxPages, k - 1);
      var run := RunCombination(svc, cb, cs[k - 1], of, maxPages);
      AccumulateProgress(svc, cb, cs, of, maxPages, k - 1);
      CombinationShape(svc, cb, cs[k - 1], of, maxPages);
      ProgressStep(prev.progress, run.progress, cs[k - 1], of, k);
    }
  }

  /** The whole pass: entries in (pairing, page, item) order; the record of an
      entry from pairing `i` is a movie of `providers[i]` when `i < |providers|`
      and a TV show of `providers[i - |providers|]` otherwise; every progress
      fraction is `done / |providers|` with `done < 2 * |providers|`, never decreasing. */
  lemma BuildOrder(svc: Services, cb: Callback, providers: seq<Provider>, maxPages: int)
    ensures var r := Build(svc, cb, providers, maxPages);
      var n := |providers|;
      && Ordered(r.entries)
      && (forall e :: 0 <= e < |r.entries| ==>
            var i := r.entries[e].origin.combo;
            var rec := r.entries[e].record;
            && i < 2 * n
            && (i < n ==> rec.kind == "Movie" && rec.provider == providers[i].name)
            && (n <= i ==> rec.kind == "TV Show" && rec.provider == providers[i - n].name))
      && NonDecreasing(r.progress)
      && (forall e :: 0 <= e < |r.progress| ==> r.progress[e].done < 2 * n && r.progress[e].of == n)
  {
    var cs := Combos(providers);
    AccumulateOrder(svc, cb, cs, |providers|, maxPages, |cs|);
    AccumulateProgress(svc, cb, cs, |providers|, maxPages, |cs|);
  }

  /** Every movie record precedes every TV record. */
  lemma MoviesBeforeShows(svc: Services, cb: Callback, providers: seq<Provider>, maxPages: int)
    ensures var rs := Records(Build(svc, cb, providers, maxPages).entries);
      && (forall i :: 0 <= i < |rs| ==> rs[i].kind == "Movie" || rs[i].kind == "TV Show")
      && (forall i, j :: 0 <= i < j < |rs| && rs[i].kind == "TV Show" ==> rs[j].kind == "TV Show")
  {
    BuildOrder(svc, cb, providers, maxPages);
  }

  /** The position of a display name in the provider mapping. */
  function Rank(providers: seq<Provider>, name: string): nat
    decreases |providers|
  {
    if |providers| == 0 || providers[0].name == name then 0 else 1 + Rank(providers[1..], name)
  }

  lemma CatalogRanks()
    ensures forall i :: 0 <= i < |Providers| ==> Rank(Providers, Providers[i].name) == i
  {
  }

  /** With the fixed mapping, records of one type appear with their providers in
      mapping order: Netflix, Apple TV, Amazon Prime, Disney+, HBO Max, Hulu. */
  lemma ProvidersInMappingOrder(svc: Services, cb: Callback, maxPages: int)
    ensures var rs := Records(Build(svc, cb, Providers, maxPages).entries);
      forall i, j :: 0 <= i < j < |rs| && rs[i].kind == rs[j].kind ==>
        Rank(Providers, rs[i].provider) <= Rank(Providers, rs[j].provider)
  {
    BuildOrder(svc, cb, Providers, maxPages);
    CatalogRanks();
  }

  /** The last progress call of a full pass with the fixed mapping reports 11/6:
      the counter runs across both content types but is divided by the provider
      count only, so the fraction exceeds 1. */
  lemma ProgressExceedsOne(svc: Services, cb: Callback, maxPages: int)
    requires cb.Some?
    requires svc.discover(Tv, 15, 1).Ok?
    requires ClampPages(svc.discover(Tv, 15, 1).body.totalPages, maxPages).Some?
    requires ClampPages(svc.discover(Tv, 15, 1).body.totalPages, maxPages).value >= 1
    ensures var ps := Build(svc, cb, Providers, maxPages).progress;
      |ps| > 0 && ps[|ps| - 1].done == 11 && ps[|ps| - 1].of == 6 && ps[|ps| - 1].done > ps[|ps| - 1].of
  {
    var cs := Combos(Providers);
    var last := cs[11];
    assert last == Combo(Tv, Provider(15, "Hulu"), 11);
    var run := RunCombination(svc, cb, last, 6, maxPages);
    var prev := Accumulate(svc, cb, cs, 6, maxPages, 11);
    assert Build(svc, cb, Providers, maxPages).progress == prev.progress + run.progress;
    var initial := svc.discover(Tv, 15, 1).body;
    var n := ClampPages(initial.totalPages, maxPages).value;
    assert |RunPages(svc, cb, last, 6, initial, 1, PageCount(n)).progress| > 0;
    CombinationShape(svc, cb, last, 6, maxPages);
  }

  /** A progress sink that raises on fractions above 1 makes every pairing past
      position `|providers|` abandon before its first page is fetched. */
  lemma BoundedSinkDropsLaterPairings(svc: Services, cb: Callback, providers: seq<Provider>, maxPages: int)
    requires cb.Some? && forall call :: cb.value(call) <==> call.done > call.of
    ensures var r := Build(svc, cb, providers, maxPages);
      forall e :: 0 <= e < |r.entries| ==> r.entries[e].origin.combo <= |providers|
  {
    var cs := Combos(providers);
    var n := |providers|;
    forall k | 0 <= k <= |cs|
      ensures var acc := Accumulate(svc, cb, cs, n, maxPages, k);
        forall e :: 0 <= e < |acc.entries| ==> acc.entries[e].origin.combo <= n
    {
      BoundedSinkPrefix(svc, cb, cs, n, maxPages, k);
    }
  }

  lemma {:induction false} BoundedSinkPrefix(svc: Services, cb: Callback, cs: seq<Combo>, of: nat, maxPages: int, k: nat)
    requires k <= |cs|
    requires forall i :: 0 <= i < |cs| ==> cs[i].position == i
    requires cb.Some? && forall call :: cb.value(call) <==> call.done > call.of
    ensures forall e :: 0 <= e < |Accumulate(svc, cb, cs, of, maxPages, k).entries| ==>
      Accumulate(svc, cb, cs, of, maxPages, k).entries[e].origin.combo <= of
  {
    if k > 0 {
      var c := cs[k - 1];
      var prev := Accumulate(svc, cb, cs, of, maxPages, k - 1);
      BoundedSinkPrefix(svc, cb, cs, of, maxPages, k - 1);
      var run := RunCombination(svc, cb, c, of, maxPages);
      CombinationShape(svc, cb, c, of, maxPages);
      if c.position > of {
        BoundedSinkSilences(svc, cb, c, of, maxPages);
      }
      PairingsAtMost(prev.entries, run.entries, c, of, 1, if maxPages < 1 then 1 else maxPages);
    }
  }

  /** A pairing past the sink's bound yields no record: when it reaches a
      page at all, its first progress call raises and abandons it there. */
  lemma BoundedSinkSilences(svc: Services, cb: Callback, c: Combo, of: nat, maxPages: int)
    requires cb.Some? && forall call :: cb.value(call) <==> call.done > call.of
    requires c.position > of
    ensures RunCombination(svc, cb, c, of, maxPages).entries == []
    ensures var first := svc.discover(c.ct, c.provider.id, 1);
      first.Ok? && ClampPages(first.body.totalPages, maxPages).Some? && ClampPages(first.body.totalPages, maxPages).value >= 1 ==>
        && RunCombination(svc, cb, c, of, maxPages).outcome == Abandoned(CallbackRaised(1))
        && |RunCombination(svc, cb, c, of, maxPages).progress| == 1
  {
    if svc.discover(c.ct, c.provider.id, 1).Ok? {
      var initial := svc.discover(c.ct, c.provider.id, 1).body;
      if ClampPages(initial.totalPages, maxPages).Some? {
        var m := ClampPages(initial.totalPages, maxPages).value;
        var call := ProgressCall(ProgressMessage(c, 1, PageCount(m)), c.position, of);
        assert cb.value(call);
      }
    }
  }

  lemma PairingsAtMost(prev: seq<Entry>, run: seq<Entry>, c: Combo, of: nat, first: nat, last: nat)
    requires forall e :: 0 <= e < |prev| ==> prev[e].origin.combo <= of
    requires FromPairing(run, c, first, last)
    requires c.position > of ==> run == []
    ensures forall e :: 0 <= e < |prev + run| ==> (prev + run)[e].origin.combo <= of
  {
    forall e | 0 <= e < |prev + run|
      ensures (prev + run)[e].origin.combo <= of
    {
      if e >= |prev| {
        assert (prev + run)[e] == run[e - |prev|];
      } else {
        assert (prev + run)[e] == prev[e];
      }
    }
  }

  /** With the fixed mapping and such a sink, the only TV records are Netflix's. */
  lemma BoundedSinkKeepsOnlyNetflixShows(svc: Services, cb: Callback, maxPages: int)
    requires cb.Some? && forall call :: cb.value(call) <==> call.done > call.of
    ensures var rs := Records(Build(svc, cb, Providers, maxPages).entries);
      forall i :: 0 <= i < |rs| && rs[i].kind == "TV Show" ==> rs[i].provider == "Netflix"
  {
    BuildOrder(svc, cb, Providers, maxPages);
    BoundedSinkDropsLaterPairings(svc, cb, Providers, maxPages);
  }
}

=== FILE: engine_pages.dfy ===
/** How many pages a pairing processes, which discover calls it makes, what an
    abandoned pairing keeps, and how large the output can grow. */
module EnginePages {
  import opened Common
  import opened Catalog
  import opened Responses
  import opened Engine

  /** The progress call for page `q` of `1..total` does not raise: there is no
      callback, or it returns normally on that call. */
  predicate Silent(cb: Callback, c: Combo, of: nat, q: nat, total: nat) {
    !(cb.Some? && cb.value(ProgressCall(ProgressMessage(c, q, total), c.position, of)))
  }

  /** The discover requests for pages `first..last` of a pairing, ascending. */
  function DiscoverRequests(c: Combo, first: int, last: int): seq<Request> {
    seq(PageCount(last + 1 - first), i requires 0 <= i < PageCount(last + 1 - first) =>
      Request(c.ct, c.provider.id, first + i))
  }

  /** The `total_pages` a discover body reports, with a missing key read as 1. */
  function Reported(t: TotalPages): int {
    if t.Count? then t.n else 1
  }

  lemma DiscoverRequestsStep(c: Combo, page: int, total: int)
    requires page <= total
    ensures DiscoverRequests(c, page, total) == [Request(c.ct, c.provider.id, page)] + DiscoverRequests(c, page + 1, total)
  {
  }

  /** When nothing fails, pages `page..total` all run: one progress call each
      (with a callback), and one discover call for each page from 2 on. */
  lemma {:induction false} RunPagesComplete(svc: Services, cb: Callback, c: Combo, of: nat,
                                            initial: DiscoverPage, page: nat, total: nat)
    requires 1 <= page
    requires forall q :: page <= q <= total ==> Silent(cb, c, of, q, total)
    requires forall p :: 2 <= p <= total ==> svc.discover(c.ct, c.provider.id, p).Ok?
    ensures var run := RunPages(svc, cb, c, of, initial, page, total);
      && run.outcome == Completed
      && run.requests == DiscoverRequests(c, if page < 2 then 2 else page, total)
      && |run.progress| == (if cb.Some? then PageCount(total + 1 - page) else 0)
    decreases total + 1 - page
  {
    if page <= total {
      assert Silent(cb, c, of, page, total);
      RunPagesComplete(svc, cb, c, of, initial, page + 1, total);
      if page > 1 {
        DiscoverRequestsStep(c, page, total);
      }
    }
  }

  /** The page clamp: a pairing whose first discover call succeeds processes
      `min(total_pages, max_pages)` pages (a missing `total_pages` counts as 1, a
      minimum of 0 or less means no page), calls discover once for page 1 and
      once more for each page 2..n, and reports progress once per page. */
  lemma PagesPerCombination(svc: Services, cb: Callback, c: Combo, of: nat, maxPages: int)
    requires svc.discover(c.ct, c.provider.id, 1).Ok?
    requires !svc.discover(c.ct, c.provider.id, 1).body.totalPages.Incomparable?
    requires var reported := Reported(svc.discover(c.ct, c.provider.id, 1).body.totalPages);
      var n := PageCount(if reported <= maxPages then reported else maxPages);
      forall q :: 1 <= q <= n ==> Silent(cb, c, of, q, n)
    requires var reported := Reported(svc.discover(c.ct, c.provider.id, 1).body.totalPages);
      forall p :: 2 <= p <= maxPages && p <= reported ==> svc.discover(c.ct, c.provider.id, p).Ok?
    ensures var reported := Reported(svc.discover(c.ct, c.provider.id, 1).body.totalPages);
      var n := PageCount(if reported <= maxPages then reported else maxPages);
      var run := RunCombination(svc, cb, c, of, maxPages);
      && run.outcome == Completed
      && run.requests == [Request(c.ct, c.provider.id, 1)] + DiscoverRequests(c, 2, n)
      && |run.progress| == (if cb.Some? then n else 0)
  {
    var initial := svc.discover(c.ct, c.provider.id, 1).body;
    var m := ClampPages(initial.totalPages, maxPages).value;
    RunPagesComplete(svc, cb, c, of, initial, 1, PageCount(m));
  }

  /** Page `q` of `1..total` goes through: the callback, when there is one, does
      not raise on its progress call, and from page 2 on its discover call succeeds. */
  predicate PagePasses(svc: Services, cb: Callback, c: Combo, of: nat, q: nat, total: nat) {
    && Silent(cb, c, of, q, total)
    && (q > 1 ==> svc.discover(c.ct, c.provider.id, q).Ok?)
  }

  /** Pages `page..total` run to the end exactly when every one of them goes
      through, and every record comes from this pairing and one of these pages. */
  lemma {:induction false} RunPagesOutcome(svc: Services, cb: Callback, c: Combo, of: nat,
                                           initial: DiscoverPage, page: nat, total: nat)
    requires 1 <= page
    ensures var run := RunPages(svc, cb, c, of, initial, page, total);
      run.outcome == Completed <==> forall q :: page <= q <= total ==> PagePasses(svc, cb, c, of, q, total)
    ensures forall e :: e in RunPages(svc, cb, c, of, initial, page, total).entries ==>
      e.origin.combo == c.position && page <= e.origin.page <= total
    decreases total + 1 - page
  {
    if page <= total {
      var call := ProgressCall(ProgressMessage(c, page, total), c.position, of);
      var reply := if page > 1 then svc.discover(c.ct, c.provider.id, page) else Ok(initial);
      if cb.Some? && cb.value(call) {
        assert !PagePasses(svc, cb, c, of, page, total);
      } else if reply.Raised? {
        assert !PagePasses(svc, cb, c, of, page, total);
      } else {
        RunPagesOutcome(svc, cb, c, of, initial, page + 1, total);
      }
    }
  }

  /** A pairing's first discover request is always for page 1; the pairing runs
      to the end exactly when that call succeeds, `min` does not raise and every
      clamped page goes through; and its records are its own. */
  lemma CombinationOutcome(svc: Services, cb: Callback, c: Combo, of: nat, maxPages: int)
    ensures var run := RunCombination(svc, cb, c, of, maxPages);
      |run.requests| >= 1 && run.requests[0] == Request(c.ct, c.provider.id, 1)
    ensures RunCombination(svc, cb, c, of, maxPages).outcome == Completed <==>
      && svc.discover(c.ct, c.provider.id, 1).Ok?
      && ClampPages(svc.discover(c.ct, c.provider.id, 1).body.totalPages, maxPages).Some?
      && var n := PageCount(ClampPages(svc.discover(c.ct, c.provider.id, 1).body.totalPages, maxPages).value);
         forall q :: 1 <= q <= n ==> PagePasses(svc, cb, c, of, q, n)
    ensures forall e :: e in RunCombination(svc, cb, c, of, maxPages).entries ==> e.origin.combo == c.position
  {
    match svc.discover(c.ct, c.provider.id, 1)
    case Raised =>
    case Ok(initial) =>
      match ClampPages(initial.totalPages, maxPages)
      case None =>
      case Some(n) =>
        RunPagesOutcome(svc, cb, c, of, initial, 1, PageCount(n));
  }

  /** An abandoned pairing does not end the pass: each of the first `k` pairings
      still makes its page-1 discover call. */
  lemma {:induction false} AccumulateTriesEveryPairing(svc: Services, cb: Callback, cs: seq<Combo>, of: nat,
                                                       maxPages: int, k: nat)
    requires k <= |cs|
    ensures var acc := Accumulate(svc, cb, cs, of, maxPages, k);
      forall j :: 0 <= j < k ==> Request(cs[j].ct, cs[j].provider.id, 1) in acc.requests
  {
    if k > 0 {
      var prev := Accumulate(svc, cb, cs, of, maxPages, k - 1);
      var run := RunCombination(svc, cb, cs[k - 1], of, maxPages);
      AccumulateTriesEveryPairing(svc, cb, cs, of, maxPages, k - 1);
      CombinationOutcome(svc, cb, cs[k - 1], of, maxPages);
      assert run.requests[0] in run.requests;
      assert Accumulate(svc, cb, cs, of, maxPages, k).requests == prev.requests + run.requests;
    }
  }

  /** A whole pass asks for page 1 of every provider, for movies and for TV
      shows, whatever happens to the pairings before. */
  lemma BuildTriesEveryPairing(svc: Services, cb: Callback, providers: seq<Provider>, maxPages: int)
    ensures var r := Build(svc, cb, providers, maxPages);
      forall j :: 0 <= j < |providers| ==>
        Request(Movie, providers[j].id, 1) in r.requests && Request(Tv, providers[j].id, 1) in r.requests
  {
    var cs := Combos(providers);
    var n := |providers|;
    var acc := Accumulate(svc, cb, cs, n, maxPages, |cs|);
    assert Build(svc, cb, providers, maxPages) == acc;
    AccumulateTriesEveryPairing(svc, cb, cs, n, maxPages, |cs|);
    forall j | 0 <= j < n
      ensures Request(Movie, providers[j].id, 1) in acc.requests && Request(Tv, providers[j].id, 1) in acc.requests
    {
      ComboAt(providers, 0, j);
      ComboAt(providers, 1, j);
      assert 1 * n + j == n + j;
    }
  }

  /** A discover call that raises at page `p` abandons the rest of the pairing.
      When the callback let the pages before `p` pass, they keep their records:
      the same records as a run without a callback that stops after page `p - 1`. */
  lemma {:induction false} FailedPageKeepsEarlierPages(svc: Services, cb: Callback, c: Combo, of: nat,
                                                       initial: DiscoverPage, page: nat, total: nat, p: nat)
    requires 1 <= page <= p <= total && 2 <= p
    requires forall q :: page <= q < p ==> Silent(cb, c, of, q, total)
    requires svc.discover(c.ct, c.provider.id, p).Raised?
    ensures RunPages(svc, cb, c, of, initial, page, total).entries == RunPages(svc, None, c, of, initial, page, p - 1).entries
    ensures RunPages(svc, cb, c, of, initial, page, total).outcome.Abandoned?
    decreases p - page
  {
    var reply := if page > 1 then svc.discover(c.ct, c.provider.id, page) else Ok(initial);
    if page < p && reply.Ok? {
      assert Silent(cb, c, of, page, total);
      FailedPageKeepsEarlierPages(svc, cb, c, of, initial, page + 1, total, p);
    }
  }

  /** At pairing level: failing at page `p` yields exactly the records of the same
      pairing clamped to `p - 1` pages, and the pairing ends abandoned. */
  lemma FailedPageKeepsEarlierPagesOfPairing(svc: Services, cb: Callback, c: Combo, of: nat, maxPages: int, p: nat)
    requires svc.discover(c.ct, c.provider.id, 1).Ok?
    requires ClampPages(svc.discover(c.ct, c.provider.id, 1).body.totalPages, maxPages).Some?
    requires 2 <= p <= ClampPages(svc.discover(c.ct, c.provider.id, 1).body.totalPages, maxPages).value
    requires var n := ClampPages(svc.discover(c.ct, c.provider.id, 1).body.totalPages, maxPages).value;
      forall q :: 1 <= q < p ==> Silent(cb, c, of, q, n)
    requires svc.discover(c.ct, c.provider.id, p).Raised?
    ensures RunCombination(svc, cb, c, of, maxPages).entries == RunCombination(svc, None, c, of, p - 1).entries
    ensures RunCombination(svc, cb, c, of, maxPages).outcome.Abandoned?
  {
    var initial := svc.discover(c.ct, c.provider.id, 1).body;
    var m := ClampPages(initial.totalPages, maxPages).value;
    assert ClampPages(initial.totalPages, p - 1) == Some(p - 1);
    FailedPageKeepsEarlierPages(svc, cb, c, of, initial, 1, PageCount(m), p);
  }

  /** A callback that raises when told about page `p` abandons the pairing
      there: only the records of its earlier pages remain, and no discover call
      for page `p` or later is made. */
  lemma {:induction false} RaisingCallbackKeepsEarlierPages(svc: Services, cb: Callback, c: Combo, of: nat,
                                                            initial: DiscoverPage, page: nat, total: nat, p: nat)
    requires 1 <= page <= p <= total
    requires cb.Some? && cb.value(ProgressCall(ProgressMessage(c, p, total), c.position, of))
    ensures var run := RunPages(svc, cb, c, of, initial, page, total);
      && run.outcome.Abandoned?
      && (forall e :: e in run.entries ==> e.origin.page < p)
      && (forall r :: r in run.requests ==> r.page < p)
    decreases p - page
  {
    var call := ProgressCall(ProgressMessage(c, page, total), c.position, of);
    var reply := if page > 1 then svc.discover(c.ct, c.provider.id, page) else Ok(initial);
    if page < p && !cb.value(call) && reply.Ok? {
      RaisingCallbackKeepsEarlierPages(svc, cb, c, of, initial, page + 1, total, p);
    }
  }

  /** When that callback let every earlier page pass, the records are exactly
      those of the same pages run without a callback and stopped after page
      `p - 1`. */
  lemma {:induction false} RaisingCallbackMatchesSilentRun(svc: Services, cb: Callback, c: Combo, of: nat,
                                                           initial: DiscoverPage, page: nat, total: nat, p: nat)
    requires 1 <= page <= p <= total
    requires cb.Some? && cb.value(ProgressCall(ProgressMessage(c, p, total), c.position, of))
    requires forall q :: page <= q < p ==> !cb.value(ProgressCall(ProgressMessage(c, q, total), c.position, of))
    ensures RunPages(svc, cb, c, of, initial, page, total).entries == RunPages(svc, None, c, of, initial, page, p - 1).entries
    decreases p - page
  {
    var reply := if page > 1 then svc.discover(c.ct, c.provider.id, page) else Ok(initial);
    if page < p && reply.Ok? {
      RaisingCallbackMatchesSilentRun(svc, cb, c, of, initial, page + 1, total, p);
    }
  }

  /** The discover body page `p` of a pairing works on: the initial body for
      page 1, otherwise the reply of that page's own call when it succeeded. */
  function PageBody(svc: Services, c: Combo, initial: DiscoverPage, p: nat): Option<DiscoverPage> {
    if p > 1 then
      match svc.discover(c.ct, c.provider.id, p)
      case Ok(d) => Some(d)
      case Raised => None
    else Some(initial)
  }

  /** An entry's record is what processing the item its origin names gives:
      item `index` of the `results` of page `page` (a missing key holds no item). */
  predicate FromItem(svc: Services, c: Combo, initial: DiscoverPage, e: Entry) {
    var body := PageBody(svc, c, initial, e.origin.page);
    && body.Some?
    && e.origin.index < |body.value.results.GetOr([])|
    && ProcessItem(svc, c.ct, c.provider.name, body.value.results.GetOr([])[e.origin.index]) == Some(e.record)
  }

  predicate FromItems(svc: Services, c: Combo, initial: DiscoverPage, es: seq<Entry>) {
    forall k :: 0 <= k < |es| ==> FromItem(svc, c, initial, es[k])
  }

  lemma PageEntriesFromItems(svc: Services, c: Combo, initial: DiscoverPage, page: nat, data: DiscoverPage)
    requires PageBody(svc, c, initial, page) == Some(data)
    ensures FromItems(svc, c, initial, PageEntries(svc, c, page, data.results.GetOr([])))
  {
    var items := data.results.GetOr([]);
    var es := PageEntries(svc, c, page, items);
    var os := ItemOutcomes(svc, c, items);
    forall k | 0 <= k < |es|
      ensures FromItem(svc, c, initial, es[k])
    {
      assert os[es[k].origin.index] == Some(es[k].record);
    }
  }

  lemma FromItemsAppend(svc: Services, c: Combo, initial: DiscoverPage, a: seq<Entry>, b: seq<Entry>)
    requires FromItems(svc, c, initial, a) && FromItems(svc, c, initial, b)
    ensures FromItems(svc, c, initial, a + b)
  {
    forall k | 0 <= k < |a + b|
      ensures FromItem(svc, c, initial, (a + b)[k])
    {
      if k < |a| {
        assert (a + b)[k] == a[k];
      } else {
        assert (a + b)[k] == b[k - |a|];
      }
    }
  }

  /** Every record of pages `page..total` is the record of the item its origin names. */
  lemma {:induction false} RunPagesFromItems(svc: Services, cb: Callback, c: Combo, of: nat,
                                             initial: DiscoverPage, page: nat, total: nat)
    requires 1 <= page
    ensures FromItems(svc, c, initial, RunPages(svc, cb, c, of, initial, page, total).entries)
    decreases total + 1 - page
  {
    if page <= total {
      var run := RunPages(svc, cb, c, of, initial, page, total);
      var call := ProgressCall(ProgressMessage(c, page, total), c.position, of);
      var reply := if page > 1 then svc.discover(c.ct, c.provider.id, page) else Ok(initial);
      if !(cb.Some? && cb.value(call)) && reply.Ok? {
        var rest := RunPages(svc, cb, c, of, initial, page + 1, total);
        RunPagesFromItems(svc, cb, c, of, initial, page + 1, total);
        assert PageBody(svc, c, initial, page) == Some(reply.body);
        var here := PageEntries(svc, c, page, reply.body.results.GetOr([]));
        PageEntriesFromItems(svc, c, initial, page, reply.body);
        FromItemsAppend(svc, c, initial, here, rest.entries);
        assert run.entries == here + rest.entries;
      } else {
        assert run.entries == [];
      }
    }
  }

  /** Provenance of a pairing's records: each one is the record of an item of the
      page its origin names, so a page without a `results` key contributes none. */
  lemma CombinationFromItems(svc: Services, cb: Callback, c: Combo, of: nat, maxPages: int)
    ensures var run := RunCombination(svc, cb, c, of, maxPages);
      |run.entries| > 0 ==>
        && svc.discover(c.ct, c.provider.id, 1).Ok?
        && FromItems(svc, c, svc.discover(c.ct, c.provider.id, 1).body, run.entries)
  {
    match svc.discover(c.ct, c.provider.id, 1)
    case Raised =>
    case Ok(initial) =>
      match ClampPages(initial.totalPages, maxPages)
      case None =>
      case Some(n) =>
        RunPagesFromItems(svc, cb, c, of, initial, 1, PageCount(n));
  }

  /** A page whose body has no `results` key gives no record. */
  lemma MissingResultsGiveNoRecords(svc: Services, cb: Callback, c: Combo, of: nat, maxPages: int, p: nat)
    requires svc.discover(c.ct, c.provider.id, 1).Ok?
    requires var body := PageBody(svc, c, svc.discover(c.ct, c.provider.id, 1).body, p);
      body.Some? && body.value.results.None?
    ensures var run := RunCombination(svc, cb, c, of, maxPages);
      forall k :: 0 <= k < |run.entries| ==> run.entries[k].origin.page != p
  {
    CombinationFromItems(svc, cb, c, of, maxPages);
  }

  /** Every discover body (the initial one included) has at most `b` items. */
  ghost predicate PagesAtMost(svc: Services, b: nat) {
    forall ct, id, p :: svc.discover(ct, id, p).Ok? ==> |svc.discover(ct, id, p).body.results.GetOr([])| <= b
  }

  lemma AddBound(left: nat, b: nat)
    ensures (left + 1) * b == left * b + b
  {
  }

  lemma MultiplyMonotone(a: nat, a2: nat, b: nat)
    requires a <= a2
    ensures a * b <= a2 * b
  {
    assert a2 * b == a * b + (a2 - a) * b;
  }

  lemma SumBound(before: nat, now: nat, k: nat, x: nat)
    requires 0 < k && before <= (k - 1) * x && now <= x
    ensures before + now <= k * x
  {
    AddBound(k - 1, x);
  }

  /** The counts of one page plus those of the pages after it. */
  lemma LengthStep(here: nat, rest: nat, progress: nat, restProgress: nat, requests: nat, restRequests: nat,
                   page: nat, total: nat, b: nat)
    requires 1 <= page <= total
    requires here <= b && progress <= 1 && requests == (if page > 1 then 1 else 0)
    requires rest <= PageCount(total + 1 - (page + 1)) * b && restProgress <= PageCount(total + 1 - (page + 1))
    requires restRequests <= PageCount(total + 1 - (if page + 1 < 2 then 2 else page + 1))
    ensures here + rest <= PageCount(total + 1 - page) * b
    ensures progress + restProgress <= PageCount(total + 1 - page)
    ensures requests + restRequests <= PageCount(total + 1 - (if page < 2 then 2 else page))
  {
    SumBound(rest, here, total + 1 - page, b);
  }

  lemma {:induction false} RunPagesBound(svc: Services, cb: Callback, c: Combo, of: nat,
                                         initial: DiscoverPage, page: nat, total: nat, b: nat)
    requires 1 <= page
    requires |initial.results.GetOr([])| <= b
    requires PagesAtMost(svc, b)
    ensures |RunPages(svc, cb, c, of, initial, page, total).entries| <= PageCount(total + 1 - page) * b
    ensures |RunPages(svc, cb, c, of, initial, page, total).progress| <= PageCount(total + 1 - page)
    ensures |RunPages(svc, cb, c, of, initial, page, total).requests| <= PageCount(total + 1 - (if page < 2 then 2 else page))
    decreases total + 1 - page
  {
    var run := RunPages(svc, cb, c, of, initial, page, total);
    var call := ProgressCall(ProgressMessage(c, page, total), c.position, of);
    var reply := if page > 1 then svc.discover(c.ct, c.provider.id, page) else Ok(initial);
    var progress := if cb.Some? then [call] else [];
    var requests := if page > 1 then [Request(c.ct, c.provider.id, page)] else [];
    if page > total {
      assert run == Run([], [], [], Completed);
    } else if cb.Some? && cb.value(call) {
      assert run == Run([], progress, [], Abandoned(CallbackRaised(page)));
    } else if reply.Raised? {
      assert run == Run([], progress, requests, Abandoned(DiscoverRaised(page)));
    } else {
      var rest := RunPages(svc, cb, c, of, initial, page + 1, total);
      RunPagesBound(svc, cb, c, of, initial, page + 1, total, b);
      var items := reply.body.results.GetOr([]);
      var here := PageEntries(svc, c, page, items);
      assert |here| <= b;
      assert |progress| <= 1 && |requests| == (if page > 1 then 1 else 0);
      assert run.entries == here + rest.entries;
      assert run.progress == progress + rest.progress;
      assert run.requests == requests + rest.requests;
      LengthStep(|here|, |rest.entries|, |progress|, |rest.progress|, |requests|, |rest.requests|, page, total, b);
    }
  }

  /** The pages pairing `c` gets after its first discover call: none when that
      call raises or `min` raises, else `min(total_pages, max_pages)` (a missing
      `total_pages` read as 1, a minimum of 0 or less meaning no page). */
  ghost function ClampedPages(svc: Services, c: Combo, maxPages: int): nat {
    match svc.discover(c.ct, c.provider.id, 1)
    case Raised => 0
    case Ok(initial) =>
      match ClampPages(initial.totalPages, maxPages)
      case None => 0
      case Some(n) => PageCount(n)
  }

  /** The discover calls a pairing with `m` clamped pages can make: page 1, then
      pages 2..m. */
  function CallsFor(m: nat): nat {
    1 + PageCount(m - 1)
  }

  /** Pages and discover calls summed over the first `k` pairings. */
  ghost function PagesOf(svc: Services, cs: seq<Combo>, maxPages: int, k: nat): nat
    requires k <= |cs|
  {
    if k == 0 then 0 else PagesOf(svc, cs, maxPages, k - 1) + ClampedPages(svc, cs[k - 1], maxPages)
  }

  ghost function CallsOf(svc: Services, cs: seq<Combo>, maxPages: int, k: nat): nat
    requires k <= |cs|
  {
    if k == 0 then 0 else CallsOf(svc, cs, maxPages, k - 1) + CallsFor(ClampedPages(svc, cs[k - 1], maxPages))
  }

  lemma Distribute(x: nat, y: nat, b: nat)
    ensures (x + y) * b == x * b + y * b
  {
  }

  lemma Associate(k: nat, m: nat, b: nat)
    ensures k * (m * b) == (k * m) * b
  {
  }

  /** The clamp is at most `max_pages` and, when the first call succeeds, at
      most the `total_pages` it reports. */
  lemma ClampedPagesAtMost(svc: Services, c: Combo, maxPages: int)
    ensures var m := ClampedPages(svc, c, maxPages);
      && m <= PageCount(maxPages)
      && (svc.discover(c.ct, c.provider.id, 1).Ok? ==>
            m <= PageCount(Reported(svc.discover(c.ct, c.provider.id, 1).body.totalPages)))
    ensures CallsFor(ClampedPages(svc, c, maxPages)) <= 1 + PageCount(maxPages - 1)
  {
  }

  /** One pairing contributes at most its clamped page count of pages of at most
      `b` records, one progress call per such page and one discover call per such
      page (at least one, for page 1). */
  lemma CombinationBound(svc: Services, cb: Callback, c: Combo, of: nat, maxPages: int, b: nat)
    requires PagesAtMost(svc, b)
    ensures var run := RunCombination(svc, cb, c, of, maxPages);
      var m := ClampedPages(svc, c, maxPages);
      && |run.entries| <= m * b
      && |run.progress| <= m
      && |run.requests| <= CallsFor(m)
  {
    match svc.discover(c.ct, c.provider.id, 1)
    case Raised =>
    case Ok(initial) =>
      match ClampPages(initial.totalPages, maxPages)
      case None =>
      case Some(m) =>
        RunPagesBound(svc, cb, c, of, initial, 1, PageCount(m), b);
  }

  /** Adding one pairing's run to the totals so far. */
  lemma AppendBound(acc: BuildResult, run: Run, pages: nat, calls: nat, m: nat, b: nat, total: nat)
    requires |acc.entries| <= pages * b && |acc.progress| <= pages && |acc.requests| <= calls
    requires |run.entries| <= m * b && |run.progress| <= m && |run.requests| <= CallsFor(m)
    requires total == pages + m
    ensures var next := Append(acc, run);
      && |next.entries| <= total * b
      && |next.progress| <= total
      && |next.requests| <= calls + CallsFor(m)
  {
    Distribute(pages, m, b);
  }

  lemma {:induction false} AccumulateBound(svc: Services, cb: Callback, cs: seq<Combo>, of: nat,
                                           maxPages: int, k: nat, b: nat)
    requires k <= |cs|
    requires PagesAtMost(svc, b)
    ensures var acc := Accumulate(svc, cb, cs, of, maxPages, k);
      && |acc.entries| <= PagesOf(svc, cs, maxPages, k) * b
      && |acc.progress| <= PagesOf(svc, cs, maxPages, k)
      && |acc.requests| <= CallsOf(svc, cs, maxPages, k)
  {
    if k > 0 {
      var prev := Accumulate(svc, cb, cs, of, maxPages, k - 1);
      var run := RunCombination(svc, cb, cs[k - 1], of, maxPages);
      var m := ClampedPages(svc, cs[k - 1], maxPages);
      AccumulateBound(svc, cb, cs, of, maxPages, k - 1, b);
      CombinationBound(svc, cb, cs[k - 1], of, maxPages, b);
      AppendBound(prev, run, PagesOf(svc, cs, maxPages, k - 1), CallsOf(svc, cs, maxPages, k - 1), m, b,
                  PagesOf(svc, cs, maxPages, k));
    }
  }

  /** Each pairing is clamped to at most `max_pages` pages. */
  lemma {:induction false} SumsBound(svc: Services, cs: seq<Combo>, maxPages: int, k: nat)
    requires k <= |cs|
    ensures PagesOf(svc, cs, maxPages, k) <= k * PageCount(maxPages)
    ensures CallsOf(svc, cs, maxPages, k) <= k * (1 + PageCount(maxPages - 1))
  {
    if k > 0 {
      var m := ClampedPages(svc, cs[k - 1], maxPages);
      SumsBound(svc, cs, maxPages, k - 1);
      ClampedPagesAtMost(svc, cs[k - 1], maxPages);
      SumBound(PagesOf(svc, cs, maxPages, k - 1), m, k, PageCount(maxPages));
      SumBound(CallsOf(svc, cs, maxPages, k - 1), CallsFor(m), k, 1 + PageCount(maxPages - 1));
    }
  }

  /** The size of the whole pass: with pages of at most `b` items, at most the
      clamped pages of all pairings times `b` records, one progress call per
      such page and one discover call per such page (at least one per pairing);
      so at most `2 * len(providers) * max_pages * b` records,
      `2 * len(providers) * max_pages` progress calls and
      `2 * len(providers) * max(1, max_pages)` discover calls. */
  lemma BuildBound(svc: Services, cb: Callback, providers: seq<Provider>, maxPages: int, b: nat)
    requires PagesAtMost(svc, b)
    ensures var cs := Combos(providers);
      var r := Build(svc, cb, providers, maxPages);
      && |r.entries| <= PagesOf(svc, cs, maxPages, |cs|) * b
      && |r.progress| <= PagesOf(svc, cs, maxPages, |cs|)
      && |r.requests| <= CallsOf(svc, cs, maxPages, |cs|)
    ensures var r := Build(svc, cb, providers, maxPages);
      && |r.entries| <= 2 * |providers| * (PageCount(maxPages) * b)
      && |r.progress| <= 2 * |providers| * PageCount(maxPages)
      && |r.requests| <= 2 * |providers| * (1 + PageCount(maxPages - 1))
  {
    var cs := Combos(providers);
    var pages := PagesOf(svc, cs, maxPages, |cs|);
    AccumulateBound(svc, cb, cs, |providers|, maxPages, |cs|, b);
    SumsBound(svc, cs, maxPages, |cs|);
    MultiplyMonotone(pages, |cs| * PageCount(maxPages), b);
    Associate(|cs|, PageCount(maxPages), b);
  }
}

=== FILE: filters.dfy ===
/** The "Search & Filter" tab of both front-ends: the row filter chain, the
    numeric reading of IMDb ratings, the genre options and the overview shown
    on a card. */
module Filters {
  import opened Common
  import opened Text
  import opened Engine

  /** The columns of a table row the filter tab reads (`None` is a missing value). */
  datatype Row = Row(
    kind: string,
    title: Option<string>,
    provider: string,
    imdbRating: Option<string>,
    genres: Option<string>,
    overview: Option<string>)

  /** The row a built record becomes in the table. */
  function RowOf(r: Record): Row {
    Row(r.kind, r.title, r.provider, Some(r.imdbRating), r.genres, r.overview)
  }

  // Subsequences and filtering

  /** `xs` is `ys` with some elements removed; matching greedily is complete. */
  predicate IsSubsequence<T(==)>(xs: seq<T>, ys: seq<T>)
    decreases |ys|
  {
    |xs| == 0 || (|ys| > 0 && if xs[0] == ys[0] then IsSubsequence(xs[1..], ys[1..]) else IsSubsequence(xs, ys[1..]))
  }

  /** Boolean-mask indexing `rows[mask]`: the rows `keep` accepts, in order. */
  function Where(rows: seq<Row>, keep: Row -> bool): (r: seq<Row>)
    ensures IsSubsequence(r, rows)
    ensures forall x :: x in r <==> x in rows && keep(x)
    ensures forall i :: 0 <= i < |r| ==> keep(r[i])
    ensures forall x :: multiset(r)[x] == if keep(x) then multiset(rows)[x] else 0
    decreases |rows|
  {
    if |rows| == 0 then []
    else
      var rest := Where(rows[1..], keep);
      assert forall x :: x in rows <==> x == rows[0] || x in rows[1..];
      CountStep(rows, rest, keep);
      if keep(rows[0]) then [rows[0]] + rest
      else
        assert |rest| > 0 ==> rest[0] != rows[0];
        rest
  }

  /** The copies a mask keeps, one row further. */
  lemma CountStep(rows: seq<Row>, rest: seq<Row>, keep: Row -> bool)
    requires |rows| > 0
    requires forall x :: multiset(rest)[x] == if keep(x) then multiset(rows[1..])[x] else 0
    ensures var r := if keep(rows[0]) then [rows[0]] + rest else rest;
      forall x :: multiset(r)[x] == if keep(x) then multiset(rows)[x] else 0
  {
    assert rows == [rows[0]] + rows[1..];
    assert multiset(rows) == multiset{rows[0]} + multiset(rows[1..]);
  }

  lemma {:induction false} WhereAll(rows: seq<Row>, keep: Row -> bool)
    requires forall i :: 0 <= i < |rows| ==> keep(rows[i])
    ensures Where(rows, keep) == rows
    decreases |rows|
  {
    if |rows| > 0 {
      WhereAll(rows[1..], keep);
    }
  }

  /** Masks that agree on the rows select the same rows. */
  lemma {:induction false} WhereSame(rows: seq<Row>, p: Row -> bool, q: Row -> bool)
    requires forall i :: 0 <= i < |rows| ==> p(rows[i]) == q(rows[i])
    ensures Where(rows, p) == Where(rows, q)
    decreases |rows|
  {
    if |rows| > 0 {
      WhereSame(rows[1..], p, q);
    }
  }

  /** Filtering twice is filtering once by the conjunction. */
  lemma {:induction false} WhereWhere(rows: seq<Row>, p: Row -> bool, q: Row -> bool, pq: Row -> bool)
    requires forall i :: 0 <= i < |rows| ==> pq(rows[i]) == (p(rows[i]) && q(rows[i]))
    ensures Where(Where(rows, p), q) == Where(rows, pq)
    decreases |rows|
  {
    if |rows| > 0 {
      WhereWhere(rows[1..], p, q, pq);
    }
  }

  // Numeric ratings

  predicate IsDigit(c: char) {
    '0' <= c <= '9'
  }

  predicate AllDigits(s: string) {
    forall i :: 0 <= i < |s| ==> IsDigit(s[i])
  }

  function DigitsValue(s: string): nat
    requires AllDigits(s)
    decreases |s|
  {
    if |s| == 0 then 0 else DigitsValue(s[..|s| - 1]) * 10 + (s[|s| - 1] as int - '0' as int)
  }

  /** `pd.to_numeric(value, errors="coerce")` in tenths, for the forms `D+` and
      `D+.D`; anything else (the "N/A" sentinel included) is `None`. */
  function Tenths(v: Option<string>): (r: Option<int>)
    ensures v.None? ==> r.None?
    ensures r.Some? ==> 0 <= r.value
    ensures r.Some? ==> |v.value| > 0 && IsDigit(v.value[0]) && IsDigit(v.value[|v.value| - 1])
    ensures r.Some? ==> forall i :: 0 <= i < |v.value| ==> IsDigit(v.value[i]) || (v.value[i] == '.' && i == |v.value| - 2)
    ensures v.Some? && |v.value| > 0 && AllDigits(v.value) ==> r.Some?
    ensures (v.Some? && |v.value| >= 3 && v.value[|v.value| - 2] == '.' && IsDigit(v.value[|v.value| - 1]) &&
             AllDigits(v.value[..|v.value| - 2])) ==> r.Some?
    ensures r.Some? && AllDigits(v.value) ==> r.value == 10 * DigitsValue(v.value)
    ensures r.Some? && !AllDigits(v.value) ==>
      AllDigits(v.value[..|v.value| - 2])
      && r.value == 10 * DigitsValue(v.value[..|v.value| - 2]) + (v.value[|v.value| - 1] as int - '0' as int)
  {
    match v
    case None => None
    case Some(s) =>
      if |s| > 0 && AllDigits(s) then Some(DigitsValue(s) * 10)
      else if |s| >= 3 && s[|s| - 2] == '.' && IsDigit(s[|s| - 1]) && AllDigits(s[..|s| - 2])
      then Some(DigitsValue(s[..|s| - 2]) * 10 + (s[|s| - 1] as int - '0' as int))
      else None
  }

  /** How OMDb writes a rating: one decimal place. */
  function RatingText(t: nat): string {
    Decimal(t / 10) + "." + [DigitChar(t % 10)]
  }

  lemma {:induction false} DecimalDigits(n: nat)
    ensures |Decimal(n)| > 0 && AllDigits(Decimal(n)) && DigitsValue(Decimal(n)) == n
    decreases n
  {
    if n >= 10 {
      DecimalDigits(n / 10);
      var d := Decimal(n);
      assert d[..|d| - 1] == Decimal(n / 10);
    }
  }

  /** Reading a rating in OMDb's format gives back its value. */
  lemma TenthsOfRatingText(t: nat)
    ensures Tenths(Some(RatingText(t))) == Some(t)
  {
    var s := RatingText(t);
    DecimalDigits(t / 10);
    assert s[..|s| - 2] == Decimal(t / 10);
    assert !IsDigit(s[|s| - 2]);
  }

  /** A whole number written in decimal reads as that many units. */
  lemma TenthsOfWholeText(n: nat)
    ensures Tenths(Some(Decimal(n))) == Some(10 * n)
  {
    DecimalDigits(n);
  }

  /** `z` zero characters. */
  function Zeros(z: nat): string {
    seq(z, _ => '0')
  }

  lemma {:induction false} ZerosValue(z: nat)
    ensures AllDigits(Zeros(z)) && DigitsValue(Zeros(z)) == 0
    decreases z
  {
    if z > 0 {
      ZerosValue(z - 1);
      assert Zeros(z)[..z - 1] == Zeros(z - 1);
    }
  }

  /** Leading zeros do not change a digit string's value. */
  lemma {:induction false} LeadingZerosValue(z: nat, s: string)
    requires AllDigits(s)
    ensures AllDigits(Zeros(z) + s) && DigitsValue(Zeros(z) + s) == DigitsValue(s)
    decreases |s|
  {
    var t := Zeros(z) + s;
    assert AllDigits(t) by {
      forall i | 0 <= i < |t| ensures IsDigit(t[i]) {
        if i >= z { assert t[i] == s[i - z]; }
      }
    }
    if |s| == 0 {
      ZerosValue(z);
      assert t == Zeros(z);
    } else {
      LeadingZerosValue(z, s[..|s| - 1]);
      assert t[..|t| - 1] == Zeros(z) + s[..|s| - 1];
    }
  }

  /** Leading zeros do not change what a numeric text reads as: "07.5" reads as
      "7.5" does. */
  lemma LeadingZerosIgnored(z: nat, s: string)
    requires Tenths(Some(s)).Some?
    ensures Tenths(Some(Zeros(z) + s)) == Tenths(Some(s))
  {
    var t := Zeros(z) + s;
    if AllDigits(s) {
      LeadingZerosValue(z, s);
    } else {
      var w := s[..|s| - 2];
      LeadingZerosValue(z, w);
      assert t[..|t| - 2] == Zeros(z) + w;
      assert t[|t| - 2] == s[|s| - 2] && t[|t| - 1] == s[|s| - 1];
      assert !AllDigits(t) by { assert !IsDigit(t[|t| - 2]); }
    }
  }

  /** The sentinel and a missing value are not numeric. */
  lemma SentinelIsNotNumeric()
    ensures Tenths(Some(NotAvailable)) == None
    ensures Tenths(None) == None
  {
    assert !IsDigit(NotAvailable[0]);
  }

  predicate IsRated(x: Row) {
    Tenths(x.imdbRating).Some?
  }

  /** The rating mask `lo <= imdb_rating_num <= hi`; a NaN compares false. */
  predicate RatingWithin(lo: int, hi: int, x: Row) {
    match Tenths(x.imdbRating)
    case None => false
    case Some(v) => lo <= v <= hi
  }

  // The filter chain

  /** `str.contains(term, case=False, na=False)` for a literal ASCII term. */
  predicate TitleMatches(term: string, x: Row) {
    x.title.Some? && Contains(Lower(x.title.value), Lower(term))
  }

  /** Some selected genre is one of the row's `", "`-separated genres. */
  predicate GenreMatches(selected: seq<string>, x: Row) {
    x.genres.Some? && exists g :: g in selected && g in Split(x.genres.value, ", ")
  }

  /** The widget values: search text, chosen types, chosen providers, rating
      range in tenths, chosen genres. */
  datatype Selection = Selection(
    searchTerm: string,
    kinds: seq<string>,
    providers: seq<string>,
    lo: int,
    hi: int,
    genres: seq<string>)

  function TitleStage(rows: seq<Row>, sel: Selection): seq<Row> {
    if sel.searchTerm == "" then rows else Where(rows, (x: Row) => TitleMatches(sel.searchTerm, x))
  }

  function KindStage(rows: seq<Row>, sel: Selection): seq<Row> {
    if |sel.kinds| == 0 then rows else Where(rows, (x: Row) => x.kind in sel.kinds)
  }

  function ProviderStage(rows: seq<Row>, sel: Selection): seq<Row> {
    if |sel.providers| == 0 then rows else Where(rows, (x: Row) => x.provider in sel.providers)
  }

  function RatingStage(rows: seq<Row>, sel: Selection): seq<Row> {
    Where(rows, (x: Row) => RatingWithin(sel.lo, sel.hi, x))
  }

  function GenreStage(rows: seq<Row>, sel: Selection): seq<Row> {
    if |sel.genres| == 0 then rows else Where(rows, (x: Row) => GenreMatches(sel.genres, x))
  }

  /** The stages in order; a stage whose widget is empty is skipped, except the
      rating stage, which always runs. The chain is one mask: it keeps, in
      their original order and with every copy, exactly the rows that pass
      every stage. */
  function ApplyFilters(rows: seq<Row>, sel: Selection): (r: seq<Row>)
    ensures r == Where(rows, (x: Row) => Admits(sel, x))
    ensures IsSubsequence(r, rows)
    ensures forall x :: x in r <==> x in rows && Admits(sel, x)
    ensures forall x :: multiset(r)[x] == if Admits(sel, x) then multiset(rows)[x] else 0
  {
    FiltersAreConjunction(rows, sel);
    GenreStage(RatingStage(ProviderStage(KindStage(TitleStage(rows, sel), sel), sel), sel), sel)
  }

  predicate PassTitle(sel: Selection, x: Row) {
    sel.searchTerm == "" || TitleMatches(sel.searchTerm, x)
  }

  predicate PassKind(sel: Selection, x: Row) {
    |sel.kinds| == 0 || x.kind in sel.kinds
  }

  predicate PassProvider(sel: Selection, x: Row) {
    |sel.providers| == 0 || x.provider in sel.providers
  }

  predicate PassGenre(sel: Selection, x: Row) {
    |sel.genres| == 0 || GenreMatches(sel.genres, x)
  }

  /** What the whole chain asks of one row. */
  predicate Admits(sel: Selection, x: Row) {
    PassTitle(sel, x) && PassKind(sel, x) && PassProvider(sel, x) && RatingWithin(sel.lo, sel.hi, x) && PassGenre(sel, x)
  }

  // The conjunctions of the first stages, one per step of the chain.
  predicate UpToKind(sel: Selection, x: Row) { PassTitle(sel, x) && PassKind(sel, x) }
  predicate UpToProvider(sel: Selection, x: Row) { UpToKind(sel, x) && PassProvider(sel, x) }
  predicate UpToRating(sel: Selection, x: Row) { UpToProvider(sel, x) && RatingWithin(sel.lo, sel.hi, x) }

  /** A skipped stage is the mask that accepts everything. */
  lemma SkipIsWhere(rows: seq<Row>, skip: bool, p: Row -> bool, q: Row -> bool)
    requires forall i :: 0 <= i < |rows| ==> q(rows[i]) == (skip || p(rows[i]))
    ensures (if skip then rows else Where(rows, p)) == Where(rows, q)
  {
    if skip {
      WhereAll(rows, q);
    } else {
      WhereSame(rows, p, q);
    }
  }

  /** The first three stages keep the rows passing all three. */
  lemma FirstStages(rows: seq<Row>, sel: Selection)
    ensures ProviderStage(KindStage(TitleStage(rows, sel), sel), sel) == Where(rows, (x: Row) => UpToProvider(sel, x))
  {
    var t := (x: Row) => PassTitle(sel, x);
    var tk := (x: Row) => UpToKind(sel, x);
    SkipIsWhere(rows, sel.searchTerm == "", (x: Row) => TitleMatches(sel.searchTerm, x), t);
    var byTitle := Where(rows, t);
    SkipIsWhere(byTitle, |sel.kinds| == 0, (x: Row) => x.kind in sel.kinds, (x: Row) => PassKind(sel, x));
    WhereWhere(rows, t, (x: Row) => PassKind(sel, x), tk);
    var byKind := Where(rows, tk);
    SkipIsWhere(byKind, |sel.providers| == 0, (x: Row) => x.provider in sel.providers, (x: Row) => PassProvider(sel, x));
    WhereWhere(rows, tk, (x: Row) => PassProvider(sel, x), (x: Row) => UpToProvider(sel, x));
  }

  /** The last two stages, after the first three, keep the rows passing all five. */
  lemma LastStages(rows: seq<Row>, sel: Selection)
    ensures GenreStage(RatingStage(Where(rows, (x: Row) => UpToProvider(sel, x)), sel), sel)
         == Where(rows, (x: Row) => Admits(sel, x))
  {
    var tkp := (x: Row) => UpToProvider(sel, x);
    var tkpr := (x: Row) => UpToRating(sel, x);
    WhereWhere(rows, tkp, (x: Row) => RatingWithin(sel.lo, sel.hi, x), tkpr);
    var byRating := Where(rows, tkpr);
    SkipIsWhere(byRating, |sel.genres| == 0, (x: Row) => GenreMatches(sel.genres, x), (x: Row) => PassGenre(sel, x));
    WhereWhere(rows, tkpr, (x: Row) => PassGenre(sel, x), (x: Row) => Admits(sel, x));
  }

  /** The five stages, applied one after the other, are the single mask of
      their conjunction. */
  lemma FiltersAreConjunction(rows: seq<Row>, sel: Selection)
    ensures GenreStage(RatingStage(ProviderStage(KindStage(TitleStage(rows, sel), sel), sel), sel), sel)
         == Where(rows, (x: Row) => Admits(sel, x))
  {
    FirstStages(rows, sel);
    LastStages(rows, sel);
  }

  /** With no search text, types, providers or genres chosen, only the rating
      range filters. */
  lemma EmptySelectionsFilterByRatingOnly(rows: seq<Row>, lo: int, hi: int)
    ensures ApplyFilters(rows, Selection("", [], [], lo, hi, [])) == Where(rows, (x: Row) => RatingWithin(lo, hi, x))
  {
    var sel := Selection("", [], [], lo, hi, []);
    WhereSame(rows, (x: Row) => Admits(sel, x), (x: Row) => RatingWithin(lo, hi, x));
  }

  /** A record whose IMDb lookup fell back to the sentinel never passes the
      chain, whatever is selected. */
  lemma SentinelRowsAreDropped(r: Record, sel: Selection)
    requires r.imdbRating == NotAvailable
    ensures !Admits(sel, RowOf(r))
  {
    SentinelIsNotNumeric();
  }

  // The slider's default range

  /** The numeric ratings of the rows, in order (`dropna` of the numeric column). */
  function Ratings(rows: seq<Row>): (vs: seq<int>)
    ensures forall i :: 0 <= i < |rows| && Tenths(rows[i].imdbRating).Some? ==> Tenths(rows[i].imdbRating).value in vs
    ensures forall v :: v in vs ==> exists i :: 0 <= i < |rows| && Tenths(rows[i].imdbRating) == Some(v)
    decreases |rows|
  {
    if |rows| == 0 then []
    else
      var rest := Ratings(rows[1..]);
      assert forall i :: 1 <= i < |rows| ==> rows[i] == rows[1..][i - 1];
      match Tenths(rows[0].imdbRating)
      case Some(v) => [v] + rest
      case None => rest
  }

  function Least(vs: seq<int>): (m: int)
    requires |vs| > 0
    ensures m in vs && forall v :: v in vs ==> m <= v
    decreases |vs|
  {
    if |vs| == 1 then vs[0]
    else
      var rest := Least(vs[1..]);
      assert forall v :: v in vs ==> v == vs[0] || v in vs[1..];
      if vs[0] <= rest then vs[0] else rest
  }

  function Most(vs: seq<int>): (m: int)
    requires |vs| > 0
    ensures m in vs && forall v :: v in vs ==> v <= m
    decreases |vs|
  {
    if |vs| == 1 then vs[0]
    else
      var rest := Most(vs[1..]);
      assert forall v :: v in vs ==> v == vs[0] || v in vs[1..];
      if rest <= vs[0] then vs[0] else rest
  }

  /** With the slider at its default, the table's own minimum to maximum, the
      rating stage keeps exactly the rows with a numeric rating: the others are
      dropped even though no range was chosen. */
  lemma DefaultRangeKeepsRatedRows(table: seq<Row>, rows: seq<Row>)
    requires |Ratings(table)| > 0
    requires forall i :: 0 <= i < |rows| ==> rows[i] in table
    ensures var lo, hi := Least(Ratings(table)), Most(Ratings(table));
      Where(rows, (x: Row) => RatingWithin(lo, hi, x)) == Where(rows, IsRated)
  {
    var vs := Ratings(table);
    var lo, hi := Least(vs), Most(vs);
    forall i | 0 <= i < |rows|
      ensures RatingWithin(lo, hi, rows[i]) == IsRated(rows[i])
    {
      var j :| 0 <= j < |table| && table[j] == rows[i];
    }
    WhereSame(rows, (x: Row) => RatingWithin(lo, hi, x), IsRated);
  }

  // Genres

  /** With genres stored as the `", "`-join of their names, the genre stage
      matches exactly when a selected genre is one of those names. */
  lemma GenreMatchOnJoinedNames(selected: seq<string>, x: Row, names: seq<string>)
    requires x.genres == Some(Join(", ", names))
    requires |names| >= 1
    requires forall i :: 0 <= i < |names| ==> !Contains(names[i], ", ")
    ensures GenreMatches(selected, x) <==> exists g :: g in selected && g in names
  {
    SplitJoin(names);
  }

  /** An item whose details list no genre is stored with the empty join, and that
      text still offers, and matches, the empty genre name. */
  lemma EmptyGenreList(x: Row)
    requires x.genres == Some(Join(", ", []))
    ensures GenreMatches([""], x)
    ensures Pieces(x.genres.value) == {""}
  {
    SplitJoinEmpty();
    assert "" in Split(x.genres.value, ", ");
    assert x.genres.value == "";
    assert Split("", ",") == [""];
    assert Strip("") == "";
  }

  /** The trimmed comma-separated pieces of one genres string. */
  function Pieces(g: string): set<string> {
    set p | p in Split(g, ",") :: Strip(p)
  }

  predicate IsGenreOption(rows: seq<Row>, x: string) {
    exists i :: 0 <= i < |rows| && rows[i].genres.Some? && x in Pieces(rows[i].genres.value)
  }

  /** The genre multiselect's options: every trimmed piece of every non-missing
      genres string, and nothing else. */
  method GenreOptions(rows: seq<Row>) returns (options: set<string>)
    ensures forall x :: x in options <==> IsGenreOption(rows, x)
  {
    options := {};
    var i := 0;
    while i < |rows|
      invariant 0 <= i <= |rows|
      invariant forall x :: x in options <==> IsGenreOption(rows[..i], x)
    {
      if rows[i].genres.Some? {
        options := options + Pieces(rows[i].genres.value);
      }
      assert forall j :: 0 <= j < i ==> rows[..i + 1][j] == rows[..i][j];
      i := i + 1;
    }
    assert rows[..i] == rows;
  }

  lemma PiecesLeadingSpace(s: string)
    ensures Pieces(" " + s) == Pieces(s)
  {
    var parts := Split(s, ",");
    SplitCommaLeading(' ', s);
    assert Split(" " + s, ",") == [" " + parts[0]] + parts[1..];
    assert StripLeft(" " + parts[0]) == StripLeft(parts[0]);
    forall p | p in Pieces(" " + s) ensures p in Pieces(s) {
      var q :| q in Split(" " + s, ",") && p == Strip(q);
      assert parts[0] in parts;
      if q != " " + parts[0] {
        assert q in parts[1..];
      }
    }
    forall p | p in Pieces(s) ensures p in Pieces(" " + s) {
      var q :| q in parts && p == Strip(q);
      if q == parts[0] {
        assert Strip(" " + parts[0]) == p;
      } else {
        var j :| 0 <= j < |parts| && parts[j] == q;
        assert q in parts[1..];
      }
    }
  }

  /** The options offered for one stored genres string are exactly the genre
      names it was joined from, when the names hold no comma and no outer
      whitespace. */
  lemma {:induction false} PiecesOfJoinedNames(names: seq<string>)
    requires |names| >= 1
    requires forall i :: 0 <= i < |names| ==> ',' !in names[i] && Strip(names[i]) == names[i]
    ensures Pieces(Join(", ", names)) == set i | 0 <= i < |names| :: names[i]
    decreases |names|
  {
    if |names| == 1 {
      SplitCommaWithout(names[0]);
    } else {
      var rest := Join(", ", names[1..]);
      PiecesOfJoinedNames(names[1..]);
      assert Join(", ", names) == names[0] + "," + (" " + rest);
      SplitCommaAfter(names[0], " " + rest);
      PiecesLeadingSpace(rest);
      assert Pieces(Join(", ", names)) == {names[0]} + Pieces(" " + rest);
      assert (set i | 0 <= i < |names| :: names[i]) == {names[0]} + set i | 0 <= i < |names[1..]| :: names[1..][i];
    }
  }

  // The card's overview

  /** `overview[:150] + "..." if len(overview) > 150 else overview`. */
  function ShownOverview(o: string): (r: string)
    ensures |r| <= 153
    ensures |o| <= 150 ==> r == o
    ensures |o| > 150 ==> r == o[..150] + "..." && StartsWith(o, r[..150])
  {
    if |o| > 150 then o[..150] + "..." else o
  }

  /** Truncating an already shown overview changes nothing. */
  lemma ShownOverviewIdempotent(o: string)
    ensures ShownOverview(ShownOverview(o)) == ShownOverview(o)
  {
    if |o| > 150 {
      var r := ShownOverview(o);
      assert r[..150] == o[..150];
    }
  }

  /** The overview box of the rail front-end: a placeholder when missing. */
  function CardOverviewRail(o: Option<string>): (r: string)
    ensures o.None? ==> r == "No description available"
    ensures o.Some? ==> r == ShownOverview(o.value) && |r| <= 153
  {
    match o
    case None => "No description available"
    case Some(text) => ShownOverview(text)
  }

  /** The overview line of the explorer front-end: shown only when present. */
  function CardOverviewExplorer(o: Option<string>): (r: Option<string>)
    ensures r.Some? <==> o.Some?
    ensures r.Some? ==> r.value == ShownOverview(o.value) && |r.value| <= 153
  {
    match o
    case None => None
    case Some(text) => Some(ShownOverview(text))
  }
}

=== FILE: responses.dfy ===
/** The JSON bodies the fetcher reads, reduced to the keys it looks at, and the
    outbound calls as functions from request to reply. */
module Responses {
  import opened Common
  import opened Catalog

  /** One element of a discover page's `results`; every key may be missing. */
  datatype Item = Item(
    id: Option<int>,
    title: Option<string>,
    name: Option<string>,
    overview: Option<string>,
    releaseDate: Option<string>,
    firstAirDate: Option<string>,
    voteAverage: Option<real>,
    popularity: Option<real>,
    posterPath: Option<string>)

  /** A discover page's `total_pages`: missing, an integer, or a value `min` cannot
      compare with an integer (such as `null`). */
  datatype TotalPages = Absent | Count(n: int) | Incomparable

  datatype DiscoverPage = DiscoverPage(totalPages: TotalPages, results: Option<seq<Item>>)

  /** One element of a details body's `genres`; its `name` key may be missing. */
  datatype Genre = Genre(name: Option<string>)

  datatype Details = Details(genres: Option<seq<Genre>>)

  datatype ExternalIds = ExternalIds(imdbId: Option<string>)

  /** The OMDb body's `imdbRating` and `imdbVotes` keys. */
  datatype Omdb = Omdb(imdbRating: Option<string>, imdbVotes: Option<string>)

  /** The four outbound calls: discover (type, provider id, page), details and
      external ids (type, catalogue id), and the OMDb lookup by IMDb id. */
  datatype Services = Services(
    discover: (ContentType, int, int) -> Reply<DiscoverPage>,
    details: (ContentType, int) -> Reply<Details>,
    externalIds: (ContentType, int) -> Reply<ExternalIds>,
    omdb: string -> Reply<Omdb>)

  /** One call of the discover endpoint, as the engine's request log records it. */
  datatype Request = Request(ct: ContentType, providerId: int, page: int)
}

=== FILE: sessions.dfy ===
/** The start-up logic of the two front-ends: where the API keys come from, and
    whether a run keeps the table it has, reuses a snapshot, rebuilds, or stops.
    The "rail" front-end looks for a snapshot itself and checks the keys only
    before a rebuild; the "explorer" front-end checks the keys first and leaves
    reuse versus rebuild to `load_or_create_database`. */
module Sessions {
  import opened Common
  import opened Catalog
  import opened Responses
  import opened Engine
  import opened EnginePages
  import opened Snapshots

  /** `st.secrets`: `None` when there is no secrets file, else its tables. */
  type Secrets = Option<map<string, map<string, string>>>

  /** `st.session_state` restricted to its string entries. */
  type SessionState = map<string, string>

  const TmdbSessionKey: string := "tmdb_api_key"
  const OmdbSessionKey: string := "omdb_api_key"

  datatype Keys = Keys(tmdb: string, omdb: string)

  /** Both keys are non-empty strings. */
  predicate KeysPresent(k: Keys) {
    k.tmdb != "" && k.omdb != ""
  }

  function SessionGet(session: SessionState, key: string): string {
    if key in session then session[key] else ""
  }

  /** `secrets["api_keys"]["tmdb"]` and `["omdb"]` both resolve. */
  predicate SecretsHold(secrets: Secrets) {
    && secrets.Some?
    && "api_keys" in secrets.value
    && "tmdb" in secrets.value["api_keys"]
    && "omdb" in secrets.value["api_keys"]
  }

  /** `get_api_keys`: both keys from the secrets, or, when any lookup raises,
      both from the session state with "" for a missing entry. */
  function GetApiKeys(secrets: Secrets, session: SessionState): (k: Keys)
    ensures SecretsHold(secrets) ==>
      k == Keys(secrets.value["api_keys"]["tmdb"], secrets.value["api_keys"]["omdb"])
    ensures !SecretsHold(secrets) ==>
      k == Keys(SessionGet(session, TmdbSessionKey), SessionGet(session, OmdbSessionKey))
  {
    if SecretsHold(secrets) then Keys(secrets.value["api_keys"]["tmdb"], secrets.value["api_keys"]["omdb"])
    else Keys(SessionGet(session, TmdbSessionKey), SessionGet(session, OmdbSessionKey))
  }

  /** The fallback is all or nothing: a secrets table with only the TMDB key
      does not supply it. */
  lemma PartialSecretsAreIgnored(table: map<string, string>, session: SessionState)
    requires "tmdb" in table && "omdb" !in table
    ensures GetApiKeys(Some(map["api_keys" := table]), session).tmdb == SessionGet(session, TmdbSessionKey)
  {
  }

  /** With neither secrets nor remembered keys, both keys are empty. */
  lemma NoSourceGivesEmptyKeys()
    ensures !KeysPresent(GetApiKeys(None, map[]))
  {
  }

  /** What the sidebar leaves behind: the keys in use and the session state. */
  datatype SidebarState = SidebarState(keys: Keys, session: SessionState, inputsShown: bool)

  /** The settings sidebar. `typed` is what the two password fields hold; the
      fields appear only when the fetched keys are not both non-empty, and what
      they hold is remembered in the session state. */
  function Sidebar(secrets: Secrets, session: SessionState, typed: Keys): (s: SidebarState)
    ensures s.inputsShown <==> !KeysPresent(GetApiKeys(secrets, session))
    ensures !s.inputsShown ==> s.keys == GetApiKeys(secrets, session) && s.session == session
    ensures s.inputsShown ==> s.keys == typed
    ensures s.inputsShown ==>
      SessionGet(s.session, TmdbSessionKey) == typed.tmdb && SessionGet(s.session, OmdbSessionKey) == typed.omdb
    ensures s.inputsShown ==> forall key :: key in session && key != TmdbSessionKey && key != OmdbSessionKey
                                          ==> key in s.session && s.session[key] == session[key]
    ensures s.inputsShown ==> s.session.Keys == session.Keys + {TmdbSessionKey, OmdbSessionKey}
  {
    var fetched := GetApiKeys(secrets, session);
    if KeysPresent(fetched) then SidebarState(fetched, session, false)
    else SidebarState(typed, session[TmdbSessionKey := typed.tmdb][OmdbSessionKey := typed.omdb], true)
  }

  /** Keys typed into the sidebar are the keys the next run fetches, as long as
      the secrets still do not resolve. */
  lemma TypedKeysPersist(secrets: Secrets, session: SessionState, typed: Keys)
    requires !SecretsHold(secrets)
    ensures GetApiKeys(secrets, Sidebar(secrets, session, typed).session) == Sidebar(secrets, session, typed).keys
  {
    var s := Sidebar(secrets, session, typed);
    if s.inputsShown {
      assert SessionGet(s.session, TmdbSessionKey) == typed.tmdb;
      assert SessionGet(s.session, OmdbSessionKey) == typed.omdb;
    }
  }

  /** How a run of a front-end ends up. */
  datatype Outcome =
    | KeepSession                                // the table is already in the session
    | MissingKeys                                // warning and `st.stop()`
    | Loaded(file: string)                       // the latest snapshot was read
    | LoadRaised(file: string)                   // reading the snapshot raised; error and stop
    | Rebuilt(result: BuildResult, file: string) // a fresh build was written under `file`

  /** The rail front-end's run, with whether a failed read was reported on the way. */
  datatype RailRun = RailRun(outcome: Outcome, loadErrorShown: bool)

  /** The rail front-end. `hasTable` is whether the session holds a table and
      `refresh` whether the button was pressed; `maxPages` is the slider value. */
  function RailStart(hasTable: bool, refresh: bool, listing: seq<string>, forceRefresh: bool,
                     readable: string -> bool, keys: Keys, svc: Services, cb: Callback,
                     maxPages: int, now: Stamp): (r: RailRun)
    requires 2 <= maxPages <= 20
    ensures r.outcome.KeepSession? <==> hasTable && !refresh
    ensures r.outcome.Loaded? <==>
      && !(hasTable && !refresh)
      && FindLatest(listing).Some? && !forceRefresh && readable(FindLatest(listing).value)
    ensures r.outcome.Loaded? ==> Some(r.outcome.file) == FindLatest(listing)
    ensures (r.outcome.MissingKeys? || r.outcome.Rebuilt?) <==>
      && !(hasTable && !refresh)
      && (FindLatest(listing).None? || forceRefresh || !readable(FindLatest(listing).value))
    ensures r.outcome.MissingKeys? ==> !KeysPresent(keys)
    ensures r.outcome.Rebuilt? ==>
      && KeysPresent(keys)
      && r.outcome.result == Build(svc, cb, Providers, maxPages)
      && r.outcome.file == SnapshotName(now)
    ensures !r.outcome.LoadRaised?
    ensures r.loadErrorShown <==>
      && !(hasTable && !refresh)
      && FindLatest(listing).Some? && !forceRefresh && !readable(FindLatest(listing).value)
  {
    if hasTable && !refresh then RailRun(KeepSession, false)
    else
      var latest := FindLatest(listing);
      var tryLoad := latest.Some? && !forceRefresh;
      if tryLoad && readable(latest.value) then RailRun(Loaded(latest.value), false)
      else if !KeysPresent(keys) then RailRun(MissingKeys, tryLoad)
      else
        match LoadOrCreate(listing, true, readable, svc, cb, maxPages, now)
        case Fresh(result, file) => RailRun(Rebuilt(result, file), tryLoad)
  }

  /** The explorer front-end: the same inputs, but the keys are checked before
      anything is loaded and the user's force flag goes to the loader as is. */
  function ExplorerStart(hasTable: bool, refresh: bool, listing: seq<string>, forceRefresh: bool,
                         readable: string -> bool, keys: Keys, svc: Services, cb: Callback,
                         maxPages: int, now: Stamp): (o: Outcome)
    requires 1 <= maxPages <= 10
    ensures o.KeepSession? <==> hasTable && !refresh
    ensures o.MissingKeys? <==> !(hasTable && !refresh) && !KeysPresent(keys)
    ensures !o.KeepSession? && !o.MissingKeys? ==>
      match LoadOrCreate(listing, forceRefresh, readable, svc, cb, maxPages, now)
      case Reused(f) => o == Loaded(f)
      case ReadRaised(f) => o == LoadRaised(f)
      case Fresh(result, f) => o == Rebuilt(result, f)
  {
    if hasTable && !refresh then KeepSession
    else if !KeysPresent(keys) then MissingKeys
    else
      match LoadOrCreate(listing, forceRefresh, readable, svc, cb, maxPages, now)
      case Reused(f) => Loaded(f)
      case ReadRaised(f) => LoadRaised(f)
      case Fresh(result, f) => Rebuilt(result, f)
  }

  /** With a readable snapshot on disk and a key missing, the rail front-end
      reuses the snapshot while the explorer front-end stops. */
  lemma KeysCheckedFirstOnlyInExplorer(listing: seq<string>, readable: string -> bool, keys: Keys,
                                       svc: Services, cb: Callback, maxPages: int, now: Stamp)
    requires 2 <= maxPages <= 10
    requires exists f :: f in listing && IsSnapshotFile(f)
    requires forall f :: f in listing ==> readable(f)
    requires !KeysPresent(keys)
    ensures RailStart(false, false, listing, false, readable, keys, svc, cb, maxPages, now).outcome.Loaded?
    ensures ExplorerStart(false, false, listing, false, readable, keys, svc, cb, maxPages, now) == MissingKeys
  {
  }

  /** In the explorer front-end, the force flag decides between reuse and
      rebuild exactly as the loader does. */
  lemma ExplorerForceRefresh(listing: seq<string>, forceRefresh: bool, readable: string -> bool, keys: Keys,
                             svc: Services, cb: Callback, maxPages: int, now: Stamp)
    requires 1 <= maxPages <= 10
    requires KeysPresent(keys)
    ensures var o := ExplorerStart(false, false, listing, forceRefresh, readable, keys, svc, cb, maxPages, now);
      && (o.Rebuilt? <==> forceRefresh || forall f :: f in listing ==> !IsSnapshotFile(f))
      && (o.Rebuilt? ==> o.result == Build(svc, cb, Providers, maxPages) && o.file == SnapshotName(now))
      && (o.Loaded? ==> Some(o.file) == FindLatest(listing) && readable(o.file))
      && (o.LoadRaised? ==> Some(o.file) == FindLatest(listing) && !readable(o.file))
  {
  }

  /** A rebuild over six providers with the slider at most `limit`: at most
      `12 * limit` discover calls and progress calls, and `12 * limit` pages of
      records. */
  lemma SixProviderBudget(svc: Services, cb: Callback, providers: seq<Provider>, maxPages: int, limit: nat, b: nat)
    requires |providers| == 6
    requires 1 <= maxPages <= limit
    requires PagesAtMost(svc, b)
    ensures var r := Build(svc, cb, providers, maxPages);
      |r.requests| <= 12 * limit && |r.progress| <= 12 * limit && |r.entries| <= 12 * limit * b
  {
    var r := Build(svc, cb, providers, maxPages);
    BuildBound(svc, cb, providers, maxPages, b);
    ScaleBudget(|r.entries|, |r.progress|, |r.requests|, PageCount(maxPages), PageCount(maxPages - 1), limit, b);
  }

  lemma ScaleBudget(entries: nat, progress: nat, requests: nat, pages: nat, before: nat, limit: nat, b: nat)
    requires pages <= limit && 1 + before <= limit
    requires entries <= 2 * 6 * (pages * b)
    requires progress <= 2 * 6 * pages
    requires requests <= 2 * 6 * (1 + before)
    ensures requests <= 12 * limit && progress <= 12 * limit && entries <= 12 * limit * b
  {
    MultiplyMonotone(pages, limit, b);
    assert 12 * limit * b == 12 * (limit * b);
  }

  /** The same for the fixed provider mapping. */
  lemma CatalogBuildBudget(svc: Services, cb: Callback, maxPages: int, limit: nat, b: nat)
    requires 1 <= maxPages <= limit
    requires PagesAtMost(svc, b)
    ensures var r := Build(svc, cb, Providers, maxPages);
      |r.requests| <= 12 * limit && |r.progress| <= 12 * limit && |r.entries| <= 12 * limit * b
  {
    SixProviderBudget(svc, cb, Providers, maxPages, limit, b);
  }

  /** The work of one rebuild from the explorer front-end (slider 1..10): at most
      120 discover calls and 120 progress calls, and 120 pages of records. */
  lemma ExplorerRebuildBudget(hasTable: bool, refresh: bool, listing: seq<string>, forceRefresh: bool,
                              readable: string -> bool, keys: Keys, svc: Services, cb: Callback,
                              maxPages: int, now: Stamp, b: nat)
    requires 1 <= maxPages <= 10
    requires PagesAtMost(svc, b)
    ensures var o := ExplorerStart(hasTable, refresh, listing, forceRefresh, readable, keys, svc, cb, maxPages, now);
      o.Rebuilt? ==> |o.result.requests| <= 120 && |o.result.progress| <= 120 && |o.result.entries| <= 120 * b
  {
    CatalogBuildBudget(svc, cb, maxPages, 10, b);
  }

  /** The same for the rail front-end (slider 2..20): at most 240 of each. */
  lemma RailRebuildBudget(hasTable: bool, refresh: bool, listing: seq<string>, forceRefresh: bool,
                          readable: string -> bool, keys: Keys, svc: Services, cb: Callback,
                          maxPages: int, now: Stamp, b: nat)
    requires 2 <= maxPages <= 20
    requires PagesAtMost(svc, b)
    ensures var r := RailStart(hasTable, refresh, listing, forceRefresh, readable, keys, svc, cb, maxPages, now);
      r.outcome.Rebuilt? ==>
        |r.outcome.result.requests| <= 240 && |r.outcome.result.progress| <= 240 && |r.outcome.result.entries| <= 240 * b
  {
    CatalogBuildBudget(svc, cb, maxPages, 20, b);
  }
}

=== FILE: snapshots.dfy ===
/** Snapshot file names (`streaming_content_YYYYMMDD_HHMMSS.csv`), the pick of the
    latest snapshot among a directory listing, and the reuse-or-rebuild decision. */
module Snapshots {
  import opened Common
  import opened Text
  import opened Catalog
  import opened Responses
  import opened Engine

  /** The fields `datetime.now()` supplies to the timestamp format. */
  datatype Timestamp = Timestamp(year: int, month: int, day: int, hour: int, minute: int, second: int)

  predicate Leap(y: int) {
    y % 4 == 0 && (y % 100 != 0 || y % 400 == 0)
  }

  function DaysInMonth(y: int, m: int): nat
    requires 1 <= m <= 12
  {
    if m == 2 then (if Leap(y) then 29 else 28)
    else if m == 4 || m == 6 || m == 9 || m == 11 then 30
    else 31
  }

  /** A calendar instant with a four-digit year, as `datetime` allows it. */
  predicate Valid(t: Timestamp) {
    && 1000 <= t.year <= 9999
    && 1 <= t.month <= 12
    && 1 <= t.day <= DaysInMonth(t.year, t.month)
    && 0 <= t.hour < 24 && 0 <= t.minute < 60 && 0 <= t.second < 60
  }

  type Stamp = t: Timestamp | Valid(t) witness Timestamp(2024, 1, 1, 0, 0, 0)

  const SnapshotPrefix: string := "streaming_content_"
  const SnapshotSuffix: string := ".csv"

  /** `strftime("%Y%m%d_%H%M%S")`. */
  function StampText(t: Stamp): (s: string)
    ensures |s| == 15
  {
    Pad(t.year, 4) + (Pad(t.month, 2) + (Pad(t.day, 2) + ("_" + (Pad(t.hour, 2) + (Pad(t.minute, 2) + Pad(t.second, 2))))))
  }

  /** The name a freshly built snapshot is written under. */
  function SnapshotName(t: Stamp): (r: string)
    ensures |r| == |SnapshotPrefix| + 15 + |SnapshotSuffix|
    ensures r[|SnapshotPrefix|..|SnapshotPrefix| + 15] == StampText(t)
  {
    SnapshotPrefix + StampText(t) + SnapshotSuffix
  }

  /** The listing filter: starts with the prefix and ends with the suffix. */
  predicate IsSnapshotFile(f: string) {
    StartsWith(f, SnapshotPrefix) && EndsWith(f, SnapshotSuffix)
  }

  // Chronology, as an independent reference: seconds since 1000-01-01 00:00:00.

  function DaysBeforeMonth(y: int, m: int): nat
    requires 1 <= m <= 13
    decreases m
  {
    if m == 1 then 0 else DaysBeforeMonth(y, m - 1) + DaysInMonth(y, m - 1)
  }

  function DaysInYear(y: int): nat {
    if Leap(y) then 366 else 365
  }

  /** The twelve months add up to the year. */
  lemma YearLength(y: int)
    ensures DaysBeforeMonth(y, 13) == DaysInYear(y)
  {
    assert DaysBeforeMonth(y, 3) == 31 + DaysInMonth(y, 2);
    assert DaysBeforeMonth(y, 7) == DaysBeforeMonth(y, 3) + 122;
    assert DaysBeforeMonth(y, 13) == DaysBeforeMonth(y, 7) + 184;
  }

  function DaysBeforeYear(y: int): nat
    requires 1000 <= y
    decreases y
  {
    if y == 1000 then 0 else DaysBeforeYear(y - 1) + DaysInYear(y - 1)
  }

  function DayNumber(t: Stamp): nat {
    DaysBeforeYear(t.year) + DaysBeforeMonth(t.year, t.month) + (t.day - 1)
  }

  function Seconds(t: Stamp): nat {
    ((DayNumber(t) * 24 + t.hour) * 60 + t.minute) * 60 + t.second
  }

  /** Field-by-field order: year, month, day, hour, minute, second. */
  predicate FieldsLess(a: Stamp, b: Stamp) {
    || a.year < b.year
    || (a.year == b.year && a.month < b.month)
    || (a.year == b.year && a.month == b.month && a.day < b.day)
    || (a.year == b.year && a.month == b.month && a.day == b.day && a.hour < b.hour)
    || (a.year == b.year && a.month == b.month && a.day == b.day && a.hour == b.hour && a.minute < b.minute)
    || (a.year == b.year && a.month == b.month && a.day == b.day && a.hour == b.hour && a.minute == b.minute
        && a.second < b.second)
  }

  lemma {:induction false} DaysBeforeMonthMonotone(y: int, m1: int, m2: int)
    requires 1 <= m1 <= m2 <= 13
    ensures DaysBeforeMonth(y, m1) <= DaysBeforeMonth(y, m2)
    decreases m2 - m1
  {
    if m1 < m2 {
      DaysBeforeMonthMonotone(y, m1, m2 - 1);
    }
  }

  lemma {:induction false} DaysBeforeYearMonotone(y1: int, y2: int)
    requires 1000 <= y1 < y2
    ensures DaysBeforeYear(y1) + DaysInYear(y1) <= DaysBeforeYear(y2)
    decreases y2 - y1
  {
    if y1 + 1 < y2 {
      DaysBeforeYearMonotone(y1, y2 - 1);
    }
  }

  /** A valid day lies inside its year: fewer days precede it than the year has. */
  lemma DayWithinYear(t: Stamp)
    ensures DaysBeforeMonth(t.year, t.month) + (t.day - 1) < DaysInYear(t.year)
  {
    DaysBeforeMonthMonotone(t.year, t.month + 1, 13);
    YearLength(t.year);
  }

  lemma DayNumberOrder(a: Stamp, b: Stamp)
    requires a.year < b.year
          || (a.year == b.year && a.month < b.month)
          || (a.year == b.year && a.month == b.month && a.day < b.day)
    ensures DayNumber(a) < DayNumber(b)
  {
    if a.year < b.year {
      DayWithinYear(a);
      DaysBeforeYearMonotone(a.year, b.year);
    } else if a.month < b.month {
      DaysBeforeMonthMonotone(a.year, a.month + 1, b.month);
    }
  }

  lemma MultiplyStep(a: nat, b: nat, r: nat)
    requires a < b
    ensures a * r + r <= b * r
  {
    var k := b - a - 1;
    assert b * r == (a + 1 + k) * r;
    assert (a + 1 + k) * r == a * r + r + k * r;
    assert k * r >= 0;
  }

  /** `a * r + x` with a digit `x < r` compares like the pair `(a, x)`. */
  lemma MixedRadix(a1: nat, x1: nat, a2: nat, x2: nat, r: nat)
    requires x1 < r && x2 < r
    ensures a1 * r + x1 < a2 * r + x2 <==> a1 < a2 || (a1 == a2 && x1 < x2)
    ensures a1 * r + x1 == a2 * r + x2 <==> a1 == a2 && x1 == x2
  {
    if a1 < a2 {
      MultiplyStep(a1, a2, r);
    } else if a2 < a1 {
      MultiplyStep(a2, a1, r);
    }
  }

  /** Chronological order is field-by-field order. */
  lemma SecondsOrder(a: Stamp, b: Stamp)
    ensures Seconds(a) < Seconds(b) <==> FieldsLess(a, b)
  {
    var da, db := DayNumber(a), DayNumber(b);
    MixedRadix(da, a.hour, db, b.hour, 24);
    MixedRadix(da * 24 + a.hour, a.minute, db * 24 + b.hour, b.minute, 60);
    MixedRadix((da * 24 + a.hour) * 60 + a.minute, a.second, (db * 24 + b.hour) * 60 + b.minute, b.second, 60);
    if a.year < b.year || (a.year == b.year && a.month < b.month) || (a.year == b.year && a.month == b.month && a.day < b.day) {
      DayNumberOrder(a, b);
    } else if b.year < a.year || (a.year == b.year && b.month < a.month) || (a.year == b.year && a.month == b.month && b.day < a.day) {
      DayNumberOrder(b, a);
    }
  }

  /** A zero-padded field followed by the rest compares field first. */
  lemma PadThen(x: nat, y: nat, w: nat, r1: string, r2: string)
    requires x < Pow10(w) && y < Pow10(w)
    ensures LexLess(Pad(x, w) + r1, Pad(y, w) + r2) <==> x < y || (x == y && LexLess(r1, r2))
    ensures Pad(x, w) + r1 == Pad(y, w) + r2 && |r1| == |r2| ==> x == y && r1 == r2
  {
    var px, py := Pad(x, w), Pad(y, w);
    PadOrder(x, y, w);
    LexLessConcat(px, r1, py, r2);
    if px + r1 == py + r2 && |r1| == |r2| {
      SplitConcat(px, r1, py, r2);
    }
  }

  lemma SplitConcat(a1: string, b1: string, a2: string, b2: string)
    requires |a1| == |a2| && a1 + b1 == a2 + b2
    ensures a1 == a2 && b1 == b2
  {
    assert a1 == (a1 + b1)[..|a1|];
    assert a2 == (a2 + b2)[..|a2|];
    assert b1 == (a1 + b1)[|a1|..];
    assert b2 == (a2 + b2)[|a2|..];
  }

  /** The 15-character timestamp compares like the fields. */
  lemma StampTextOrder(a: Stamp, b: Stamp)
    ensures LexLess(StampText(a), StampText(b)) <==> FieldsLess(a, b)
  {
    assert Pow10(2) == 100 && Pow10(4) == 10000;
    var sa := Pad(a.minute, 2) + Pad(a.second, 2);
    var sb := Pad(b.minute, 2) + Pad(b.second, 2);
    PadThen(a.minute, b.minute, 2, Pad(a.second, 2), Pad(b.second, 2));
    PadOrder(a.second, b.second, 2);
    var ha, hb := Pad(a.hour, 2) + sa, Pad(b.hour, 2) + sb;
    PadThen(a.hour, b.hour, 2, sa, sb);
    var ua, ub := "_" + ha, "_" + hb;
    LexLessConcat("_", ha, "_", hb);
    LexLessIrreflexive("_");
    var da, db := Pad(a.day, 2) + ua, Pad(b.day, 2) + ub;
    PadThen(a.day, b.day, 2, ua, ub);
    var ma, mb := Pad(a.month, 2) + da, Pad(b.month, 2) + db;
    PadThen(a.month, b.month, 2, da, db);
    PadThen(a.year, b.year, 4, ma, mb);
    PadThen(a.minute, b.minute, 2, Pad(a.second, 2), Pad(b.second, 2));
  }

  /** The snapshot name determines its timestamp. */
  lemma StampTextInjective(a: Stamp, b: Stamp)
    requires StampText(a) == StampText(b)
    ensures a == b
  {
    StampTextOrder(a, b);
    StampTextOrder(b, a);
    LexLessIrreflexive(StampText(a));
  }

  /** Snapshot names compare like their timestamps' fields. */
  lemma NameOrderIsFieldOrder(a: Stamp, b: Stamp)
    ensures LexLess(SnapshotName(a), SnapshotName(b)) <==> FieldsLess(a, b)
  {
    var ta, tb := StampText(a), StampText(b);
    LexLessConcat(SnapshotPrefix + ta, SnapshotSuffix, SnapshotPrefix + tb, SnapshotSuffix);
    LexLessIrreflexive(SnapshotSuffix);
    LexLessConcat(SnapshotPrefix, ta, SnapshotPrefix, tb);
    LexLessIrreflexive(SnapshotPrefix);
    StampTextOrder(a, b);
  }

  /** The key property of the naming scheme: one snapshot name sorts before
      another exactly when its timestamp is earlier, and no two instants share
      a name. */
  lemma NameOrderIsChronological(a: Stamp, b: Stamp)
    ensures LexLess(SnapshotName(a), SnapshotName(b)) <==> Seconds(a) < Seconds(b)
    ensures SnapshotName(a) == SnapshotName(b) <==> a == b
  {
    NameOrderIsFieldOrder(a, b);
    SecondsOrder(a, b);
    if SnapshotName(a) == SnapshotName(b) {
      var ta, tb := StampText(a), StampText(b);
      assert ta == SnapshotName(a)[18..33] && tb == SnapshotName(b)[18..33];
      StampTextInjective(a, b);
    }
  }

  lemma SnapshotNameIsListed(t: Stamp)
    ensures IsSnapshotFile(SnapshotName(t))
  {
    var n := SnapshotName(t);
    assert n[..|SnapshotPrefix|] == SnapshotPrefix;
    assert n[|n| - |SnapshotSuffix|..] == SnapshotSuffix;
  }

  /** The names that pass the listing filter, in listing order. */
  function Candidates(listing: seq<string>): (cs: seq<string>)
    ensures forall f :: f in cs <==> f in listing && IsSnapshotFile(f)
    decreases |listing|
  {
    if |listing| == 0 then []
    else (if IsSnapshotFile(listing[0]) then [listing[0]] else []) + Candidates(listing[1..])
  }

  /** The last element of `sorted(names)`: the greatest name in Python's string
      order, or `None` for an empty list. */
  function Greatest(names: seq<string>): (r: Option<string>)
    ensures r.None? <==> |names| == 0
    ensures r.Some? ==> r.value in names && forall x :: x in names ==> LexLessEq(x, r.value)
    decreases |names|
  {
    if |names| == 0 then None
    else
      match Greatest(names[1..])
      case None => Some(names[0])
      case Some(m) =>
        LexLessTotal(m, names[0]);
        assert forall x :: x in names[1..] && LexLess(m, names[0]) ==> LexLessEq(x, names[0]) by {
          forall x | x in names[1..] && LexLess(m, names[0]) && x != m
            ensures LexLess(x, names[0])
          {
            LexLessTransitive(x, m, names[0]);
          }
        }
        assert names == [names[0]] + names[1..];
        if LexLess(m, names[0]) then Some(names[0]) else Some(m)
  }

  /** `find_latest_database` (and the same lookup inside `load_or_create_database`):
      `None` exactly when no listed name passes the filter, otherwise a listed,
      filtered name no other filtered name sorts after. */
  function FindLatest(listing: seq<string>): (r: Option<string>)
    ensures r.None? <==> forall f :: f in listing ==> !IsSnapshotFile(f)
    ensures r.Some? ==> r.value in listing && IsSnapshotFile(r.value)
    ensures r.Some? ==> forall f :: f in listing && IsSnapshotFile(f) ==> LexLessEq(f, r.value)
  {
    var cs := Candidates(listing);
    assert |cs| > 0 ==> cs[0] in cs;
    Greatest(cs)
  }

  /** When the pick is a timestamped snapshot, it is the newest timestamped
      snapshot in the listing. */
  lemma LatestIsNewest(listing: seq<string>, newest: Stamp)
    requires FindLatest(listing) == Some(SnapshotName(newest))
    ensures forall u: Stamp :: SnapshotName(u) in listing ==> Seconds(u) <= Seconds(newest)
  {
    forall u: Stamp | SnapshotName(u) in listing
      ensures Seconds(u) <= Seconds(newest)
    {
      SnapshotNameIsListed(u);
      NameOrderIsChronological(u, newest);
      NameOrderIsChronological(newest, u);
    }
  }

  /** Of two snapshots, the later one (field by field, which by `SecondsOrder`
      is the chronologically later one) is picked, in either listing order. */
  lemma PickNewer(a: Stamp, b: Stamp)
    requires FieldsLess(a, b)
    ensures FindLatest([SnapshotName(a), SnapshotName(b)]) == Some(SnapshotName(b))
    ensures FindLatest([SnapshotName(b), SnapshotName(a)]) == Some(SnapshotName(b))
  {
    SnapshotNameIsListed(a);
    SnapshotNameIsListed(b);
    NameOrderIsFieldOrder(a, b);
    LexLessAsymmetric(SnapshotName(a), SnapshotName(b));
    LexLessIrreflexive(SnapshotName(a));
  }

  lemma PaddedYear()
    ensures Pad(2024, 4) == "2024"
  {
    assert Pad(2, 1) == "2";
    assert Pad(20, 2) == "20";
    assert Pad(202, 3) == "202";
  }

  lemma PaddedFields()
    ensures Pad(0, 2) == "00" && Pad(1, 2) == "01" && Pad(6, 2) == "06"
  {
    assert Pad(0, 1) == "0";
  }

  lemma JanuaryText()
    ensures StampText(Timestamp(2024, 1, 1, 1, 1, 1)) == "20240101_010101"
  {
    PaddedYear();
    PaddedFields();
  }

  lemma JuneText()
    ensures StampText(Timestamp(2024, 6, 1, 0, 0, 0)) == "20240601_000000"
  {
    PaddedYear();
    PaddedFields();
  }

  lemma JanuaryName(jan: Stamp)
    requires jan == Timestamp(2024, 1, 1, 1, 1, 1)
    ensures SnapshotName(jan) == "streaming_content_20240101_010101.csv"
  {
    JanuaryText();
  }

  lemma JuneName(jun: Stamp)
    requires jun == Timestamp(2024, 6, 1, 0, 0, 0)
    ensures SnapshotName(jun) == "streaming_content_20240601_000000.csv"
  {
    JuneText();
  }

  /** The two-file example: the June snapshot is picked over the January one. */
  lemma LatestOfTwo(jan: Stamp, jun: Stamp)
    requires jan == Timestamp(2024, 1, 1, 1, 1, 1) && jun == Timestamp(2024, 6, 1, 0, 0, 0)
    ensures FindLatest(["streaming_content_20240101_010101.csv", "streaming_content_20240601_000000.csv"])
         == Some("streaming_content_20240601_000000.csv")
  {
    PickNewer(jan, jun);
    JanuaryName(jan);
    JuneName(jun);
  }

  /** What `load_or_create_database` returns: the latest snapshot (read or, when
      `read_csv` raises, the exception), or a fresh build with its new file name. */
  datatype Database = Reused(file: string) | ReadRaised(file: string) | Fresh(result: BuildResult, file: string)

  /** Reuse versus rebuild. `readable` says whether reading a file succeeds;
      `now` is the clock reading taken after the build. */
  function LoadOrCreate(listing: seq<string>, forceRefresh: bool, readable: string -> bool,
                        svc: Services, cb: Callback, maxPages: int, now: Stamp): (r: Database)
    ensures r.Fresh? <==> forceRefresh || forall f :: f in listing ==> !IsSnapshotFile(f)
    ensures r.Fresh? ==> r.result == Build(svc, cb, Providers, maxPages) && r.file == SnapshotName(now)
    ensures !r.Fresh? ==>
      && Some(r.file) == FindLatest(listing)
      && (r.Reused? <==> readable(r.file))
  {
    match FindLatest(listing)
    case Some(latest) =>
      if !forceRefresh then (if readable(latest) then Reused(latest) else ReadRaised(latest))
      else Fresh(Build(svc, cb, Providers, maxPages), SnapshotName(now))
    case None => Fresh(Build(svc, cb, Providers, maxPages), SnapshotName(now))
  }
}

=== FILE: text.dfy ===
/** The handful of Python `str` operations the model needs, over `seq<char>`. */
module Text {

  /** Python's ordering of `str` values (the order `sorted` uses): code point by
      code point, and a proper prefix comes first. */
  predicate LexLess(a: string, b: string)
    decreases |a|
  {
    |b| > 0 && (|a| == 0 || a[0] < b[0] || (a[0] == b[0] && LexLess(a[1..], b[1..])))
  }

  predicate LexLessEq(a: string, b: string) {
    a == b || LexLess(a, b)
  }

  lemma {:induction false} LexLessIrreflexive(a: string)
    ensures !LexLess(a, a)
  {
    if |a| > 0 {
      LexLessIrreflexive(a[1..]);
    }
  }

  lemma {:induction false} LexLessTransitive(a: string, b: string, c: string)
    requires LexLess(a, b) && LexLess(b, c)
    ensures LexLess(a, c)
  {
    if |a| > 0 && a[0] == b[0] && b[0] == c[0] {
      LexLessTransitive(a[1..], b[1..], c[1..]);
    }
  }

  lemma {:induction false} LexLessTotal(a: string, b: string)
    ensures a == b || LexLess(a, b) || LexLess(b, a)
  {
    if |a| > 0 && |b| > 0 && a[0] == b[0] {
      LexLessTotal(a[1..], b[1..]);
      if a[1..] == b[1..] {
        assert a == [a[0]] + a[1..] && b == [b[0]] + b[1..];
      }
    }
  }

  lemma LexLessAsymmetric(a: string, b: string)
    requires LexLess(a, b)
    ensures !LexLess(b, a)
  {
    if LexLess(b, a) {
      LexLessTransitive(a, b, a);
      LexLessIrreflexive(a);
    }
  }

  /** Comparing two concatenations whose first parts have the same length compares
      the first parts, and the second parts only on a tie. */
  lemma {:induction false} LexLessConcat(a1: string, b1: string, a2: string, b2: string)
    requires |a1| == |a2|
    ensures LexLess(a1 + b1, a2 + b2) <==> LexLess(a1, a2) || (a1 == a2 && LexLess(b1, b2))
  {
    if |a1| == 0 {
      assert a1 + b1 == b1 && a2 + b2 == b2;
    } else {
      assert (a1 + b1)[0] == a1[0] && (a1 + b1)[1..] == a1[1..] + b1;
      assert (a2 + b2)[0] == a2[0] && (a2 + b2)[1..] == a2[1..] + b2;
      LexLessConcat(a1[1..], b1, a2[1..], b2);
      assert a1 == [a1[0]] + a1[1..] && a2 == [a2[0]] + a2[1..];
    }
  }

  function Pow10(n: nat): nat {
    if n == 0 then 1 else 10 * Pow10(n - 1)
  }

  function DigitChar(d: nat): char
    requires d < 10
  {
    (48 + d) as char
  }

  /** The low `width` decimal digits of `x`, zero-padded (strftime's `%m`, `%d`, ...). */
  function Pad(x: nat, width: nat): (s: string)
    ensures |s| == width
  {
    if width == 0 then "" else Pad(x / 10, width - 1) + [DigitChar(x % 10)]
  }

  /** Fixed-width zero-padded numbers compare as strings exactly as they compare as
      numbers, and distinct numbers get distinct strings. */
  lemma {:induction false} PadOrder(x: nat, y: nat, w: nat)
    requires x < Pow10(w) && y < Pow10(w)
    ensures LexLess(Pad(x, w), Pad(y, w)) <==> x < y
    ensures Pad(x, w) == Pad(y, w) <==> x == y
  {
    if w > 0 {
      assert x / 10 < Pow10(w - 1) && y / 10 < Pow10(w - 1);
      PadOrder(x / 10, y / 10, w - 1);
      var cx, cy := DigitChar(x % 10), DigitChar(y % 10);
      LexLessConcat(Pad(x / 10, w - 1), [cx], Pad(y / 10, w - 1), [cy]);
      assert LexLess([cx], [cy]) <==> x % 10 < y % 10;
      assert Pad(x, w) == Pad(y, w) <==> Pad(x / 10, w - 1) == Pad(y / 10, w - 1) && cx == cy by {
        if Pad(x, w) == Pad(y, w) {
          assert Pad(x, w)[..w - 1] == Pad(x / 10, w - 1);
          assert Pad(y, w)[..w - 1] == Pad(y / 10, w - 1);
          assert Pad(x, w)[w - 1] == cx && Pad(y, w)[w - 1] == cy;
        }
      }
      assert x == 10 * (x / 10) + x % 10 && y == 10 * (y / 10) + y % 10;
    }
  }

  /** Python's `str(n)` for a natural number. */
  function Decimal(n: nat): string
    decreases n
  {
    if n < 10 then [DigitChar(n)] else Decimal(n / 10) + [DigitChar(n % 10)]
  }

  predicate StartsWith(s: string, p: string) {
    |p| <= |s| && s[..|p|] == p
  }

  predicate EndsWith(s: string, p: string) {
    |p| <= |s| && s[|s| - |p|..] == p
  }

  /** `p in s` for strings. */
  predicate Contains(s: string, p: string)
    decreases |s|
  {
    StartsWith(s, p) || (|s| > 0 && Contains(s[1..], p))
  }

  /** ASCII case folding (`str.lower` restricted to A-Z). */
  function LowerChar(c: char): char {
    if 'A' <= c <= 'Z' then (c as int + 32) as char else c
  }

  function Lower(s: string): (r: string)
    ensures |r| == |s|
    ensures forall i :: 0 <= i < |s| ==> r[i] == LowerChar(s[i])
  {
    seq(|s|, i requires 0 <= i < |s| => LowerChar(s[i]))
  }

  /** The characters `str.isspace` accepts, restricted to ASCII. */
  predicate IsSpace(c: char) {
    (9 <= c as int <= 13) || (28 <= c as int <= 32)
  }

  function StripLeft(s: string): string
    decreases |s|
  {
    if |s| > 0 && IsSpace(s[0]) then StripLeft(s[1..]) else s
  }

  function StripRight(s: string): string
    decreases |s|
  {
    if |s| > 0 && IsSpace(s[|s| - 1]) then StripRight(s[..|s| - 1]) else s
  }

  /** `str.strip()` with no argument. */
  function Strip(s: string): string {
    StripRight(StripLeft(s))
  }

  /** `s.split(sep)` for a non-empty separator: cut at every leftmost,
      non-overlapping occurrence; there is always at least one piece. */
  function Split(s: string, sep: string): (parts: seq<string>)
    requires |sep| > 0
    ensures |parts| >= 1
    decreases |s|
  {
    if StartsWith(s, sep) then [""] + Split(s[|sep|..], sep)
    else if |s| == 0 then [""]
    else
      var rest := Split(s[1..], sep);
      [[s[0]] + rest[0]] + rest[1..]
  }

  /** `sep.join(xs)`. */
  function Join(sep: string, xs: seq<string>): string
    decreases |xs|
  {
    if |xs| == 0 then ""
    else if |xs| == 1 then xs[0]
    else xs[0] + sep + Join(sep, xs[1..])
  }

  /** A piece with no ", " in it is not cut by `split(", ")`. */
  lemma {:induction false} SplitWithoutSeparator(x: string)
    requires !Contains(x, ", ")
    ensures Split(x, ", ") == [x]
  {
    if |x| > 0 {
      SplitWithoutSeparator(x[1..]);
      assert [x[0]] + x[1..] == x;
    }
  }

  /** `split(", ")` cuts `x + ", " + rest` right after `x` when `x` holds no ", ". */
  lemma {:induction false} SplitAfterPiece(x: string, rest: string)
    requires !Contains(x, ", ")
    ensures Split(x + ", " + rest, ", ") == [x] + Split(rest, ", ")
  {
    var s := x + ", " + rest;
    if |x| == 0 {
      assert s == ", " + rest;
      assert StartsWith(s, ", ");
      assert s[2..] == rest;
    } else {
      assert s[1..] == x[1..] + ", " + rest;
      SplitAfterPiece(x[1..], rest);
      assert [x[0]] + x[1..] == x;
    }
  }

  /** `split(", ")` inverts `", ".join` on a non-empty list whose elements hold no ", ". */
  lemma {:induction false} SplitJoin(xs: seq<string>)
    requires |xs| >= 1
    requires forall i :: 0 <= i < |xs| ==> !Contains(xs[i], ", ")
    ensures Split(Join(", ", xs), ", ") == xs
  {
    if |xs| == 1 {
      SplitWithoutSeparator(xs[0]);
    } else {
      SplitJoin(xs[1..]);
      SplitAfterPiece(xs[0], Join(", ", xs[1..]));
      assert [xs[0]] + xs[1..] == xs;
    }
  }

  /** `x.split(",")` is `[x]` when `x` has no comma. */
  lemma {:induction false} SplitCommaWithout(x: string)
    requires ',' !in x
    ensures Split(x, ",") == [x]
  {
    if |x| > 0 {
      SplitCommaWithout(x[1..]);
      assert [x[0]] + x[1..] == x;
    }
  }

  /** `split(",")` cuts `x + "," + rest` right after a comma-free `x`. */
  lemma {:induction false} SplitCommaAfter(x: string, rest: string)
    requires ',' !in x
    ensures Split(x + "," + rest, ",") == [x] + Split(rest, ",")
  {
    var s := x + "," + rest;
    if |x| == 0 {
      assert s == "," + rest;
      assert s[1..] == rest;
    } else {
      assert s[1..] == x[1..] + "," + rest;
      SplitCommaAfter(x[1..], rest);
      assert [x[0]] + x[1..] == x;
    }
  }

  /** A leading non-comma character stays on the first piece. */
  lemma SplitCommaLeading(d: char, s: string)
    requires d != ','
    ensures Split([d] + s, ",") == [[d] + Split(s, ",")[0]] + Split(s, ",")[1..]
  {
    assert ([d] + s)[1..] == s;
  }

  /** ... but not on the empty list: `"".split(", ")` is `[""]`. */
  lemma SplitJoinEmpty()
    ensures Split(Join(", ", []), ", ") == [""]
  {
  }
}

